=== FILE: README.md ===
# VideoEncoder core, modelled in Dafny

This project models the logic inside the Android `VideoEncoder` of the
camera_with_rtmp plugin (`VideoEncoder.kt`). The class wraps a `MediaCodec` H.264 or
H.265 encoder. Camera frames go into a bounded queue and come out as input
buffers. The encoder's output buffers and parameter sets go to a sink. Six
modules cover the parts with logic of their own:

- `Base` (`base.dfy`) holds bytes, `Option`, and the Annex B start code
  `00 00 00 01` of ITU-T H.264 and ITU-T H.265.
- `H264Fallback` (`h264_fallback.dfy`) is `decodeSpsPpsFromBuffer`. It recovers
  the SPS and PPS from a codec-config output buffer by cutting at the first two
  start codes that the scan accepts. The scan only accepts a start code that
  begins below `length - 4`. The module holds the scanning loop, the decoder as
  written, and a corrected decoder (see Findings).
- `H265Extract` (`h265_extract.dfy`) is `extractVpsSpsPpsFromH265`. Its start
  code matcher fires when a byte 1 follows a zero run of exactly three. So
  `00 00 00 00 01` is not recognised. The blob is cut at the second start code
  and at the last one. The VPS part starts at offset 0, not at the first start
  code. A fourth start code moves the PPS boundary. With fewer than three start
  codes the array allocation gets a negative size and throws; the model returns
  `None`. Both the loop-and-array method and a functional definition are
  modelled, and they are proved equal.
- `Capabilities` (`capabilities.dfy`) covers `chooseColorDynamically` and the
  matching loop of `chooseEncoder`, as first-match searches over colour-format
  codes 19 (YUV420 planar), 21 (YUV420 semi-planar) and 0x7F000789 (surface).
- `InputFrames` (`input_frames.dfy`) covers `getInputFrame`:
  - the rate limiter's verdicts are an input;
  - the orientation is normalised;
  - the rotation and conversion requested from the pixel helpers are recorded.
- `EncoderSession` (`session.dfy`) is the encoder's state as an immutable
  record. Each operation is a transition function: `prepare`, `start`,
  `stop`/`stopImp`, `inputYUVData`, `setVideoBitrateOnFly`, `formatChanged`, the
  input step (`processInput`), and the output step (`checkBuffer` then
  `sendBuffer`). Effects are returned as events: sink calls, frames submitted
  to the encoder, and exceptions that escape. The clock is a parameter in
  microseconds. There are two output steps: one with the corrected H.264
  split, and one with checkBuffer as written. Runs of operations may mix them.
  - A run of operations keeps the queue within its 80 slots.
  - The fallback sends parameter sets at most once per generation.
  - Timestamps are non-decreasing while the clock is.

Three behaviours of the code that a reader might not expect are modelled as
written:

- `extractVpsSpsPpsFromH265` needs three start codes, not two. With exactly two,
  `ppsPosition` stays -1, and the SPS allocation gets a negative size.
- The handler thread is created once with the encoder and never replaced. So a
  second `start()` (for instance inside `reset()`) throws at
  `handlerThread.start()`, after clearing the flag and taking the new time
  origin but before the codec starts. `EncoderSession.ResetOutcome` states this.
- `getInputFrame` converts frames to the colour format the encoder was
  constructed with. That can be `YUV420Dynamical`, not the format `prepare`
  resolved.

## Model

| member | source | states |
|---|---|---|
| H264Fallback.FirstHit | android/src/main/kotlin/com/whelksoft/camera_with_rtmp/VideoEncoder.kt:279-289 | the first position from `from` on where the scan accepts a start code (below `length - 4`), or -1; no accepted position is skipped |
| H264Fallback.ScanSpsPpsIndices | android/src/main/kotlin/com/whelksoft/camera_with_rtmp/VideoEncoder.kt:276-289 | the loop sets `spsIndex` to the first accepted start code and `ppsIndex` to the second, with nothing accepted in between; `ppsIndex` stays -1 exactly when there are fewer than two |
| H264Fallback.DecodeSpsPpsAsWritten | android/src/main/kotlin/com/whelksoft/camera_with_rtmp/VideoEncoder.kt:271-299 | null (TooFewStartCodes) exactly when there are fewer than two accepted start codes; otherwise the SPS is the `ppsIndex` bytes from `spsIndex` and the PPS the rest, and the copy fails exactly when `spsIndex + ppsIndex > length` |
| H264Fallback.DecodeSpsPps | android/src/main/kotlin/com/whelksoft/camera_with_rtmp/VideoEncoder.kt:290-298 | corrected split: parameter sets exactly when there are two accepted start codes, SPS is `[spsIndex, ppsIndex)`, PPS `[ppsIndex, length)`, never an out-of-bounds copy |
| H264Fallback.DecodeSpsPpsPartition | android/src/main/kotlin/com/whelksoft/camera_with_rtmp/VideoEncoder.kt:290-297 | both parts begin with a start code; the PPS has at least one byte after it; prefix, SPS and PPS concatenate back to the buffer; no accepted start code lies in the dropped prefix |
| H264Fallback.AsWrittenAgreesAtZero | android/src/main/kotlin/com/whelksoft/camera_with_rtmp/VideoEncoder.kt:290-297 | with the first start code at offset 0 the code as written gives the corrected split, and SPS followed by PPS is the whole buffer |
| H264Fallback.AsWrittenDivergesAfterLeadingBytes | android/src/main/kotlin/com/whelksoft/camera_with_rtmp/VideoEncoder.kt:290-295 | with two start codes and none at offset 0, the code as written never gives the corrected split |
| H264Fallback.AsWrittenSpsOverrun | android/src/main/kotlin/com/whelksoft/camera_with_rtmp/VideoEncoder.kt:291-292 | on `07 00 00 00 01 09 00 00 00 01 05 05` the SPS as written takes one byte of the PPS start code; the corrected SPS is `00 00 00 01 09` |
| H264Fallback.AsWrittenCopyOutOfBounds | android/src/main/kotlin/com/whelksoft/camera_with_rtmp/VideoEncoder.kt:291-292 | on six leading bytes followed by two parameter sets the SPS copy as written runs past the end of the buffer, while the corrected split succeeds |
| H264Fallback.FamilyASplit | android/src/main/kotlin/com/whelksoft/camera_with_rtmp/VideoEncoder.kt:279-297 | `00 00 00 01 A 00 00 00 01 B`, with no start code inside A and B non-empty, splits into `00 00 00 01 A` and `00 00 00 01 B` under both decoders |
| H264Fallback.TrailingStartCodeIgnored | android/src/main/kotlin/com/whelksoft/camera_with_rtmp/VideoEncoder.kt:279 | a start code in the last four bytes is not accepted, so `00 00 00 01 09 00 00 00 01` yields no parameter sets |
| H265Extract.FiresIffIsolatedStartCode | android/src/main/kotlin/com/whelksoft/camera_with_rtmp/VideoEncoder.kt:315-329 | the matcher fires at `i` (zero counter exactly 3 and byte 1) exactly when a start code that no further zero byte precedes begins at `i - 3` |
| H265Extract.PositionsBelow | android/src/main/kotlin/com/whelksoft/camera_with_rtmp/VideoEncoder.kt:315-324 | every recorded boundary is a start code that lies inside the bytes scanned so far |
| H265Extract.PositionsComplete | android/src/main/kotlin/com/whelksoft/camera_with_rtmp/VideoEncoder.kt:315-324 | every such start code in the scanned bytes is recorded |
| H265Extract.PositionsSpaced | android/src/main/kotlin/com/whelksoft/camera_with_rtmp/VideoEncoder.kt:315-324 | boundaries are recorded in increasing order, at least four bytes apart |
| H265Extract.RecordStep | android/src/main/kotlin/com/whelksoft/camera_with_rtmp/VideoEncoder.kt:317-323 | the if/else-if/else chain assigns the first boundary to `vpsPosition`, the second to `spsPosition`, and each later one to `ppsPosition` |
| H265Extract.ScanPositions | android/src/main/kotlin/com/whelksoft/camera_with_rtmp/VideoEncoder.kt:310-330 | after the scan, `vpsPosition` and `spsPosition` are the first and second boundaries and `ppsPosition` the last from the third on; each is -1 when missing |
| H265Extract.ExtractVpsSpsPps | android/src/main/kotlin/com/whelksoft/camera_with_rtmp/VideoEncoder.kt:331-346 | fails exactly when there are fewer than three boundaries; otherwise VPS, SPS and PPS concatenate to the input, each has at least four bytes, and SPS and PPS begin with a start code |
| H265Extract.ExtractRanges | android/src/main/kotlin/com/whelksoft/camera_with_rtmp/VideoEncoder.kt:331-342 | the parts are `[0, second)`, `[second, last)` and `[last, size)`, and their lengths sum to the input size |
| H265Extract.LaterStartCodesStayInSps | android/src/main/kotlin/com/whelksoft/camera_with_rtmp/VideoEncoder.kt:321-322 | with four or more boundaries the third boundary's start code lies inside the SPS part |
| H265Extract.VpsKeepsLeadingBytes | android/src/main/kotlin/com/whelksoft/camera_with_rtmp/VideoEncoder.kt:335-336 | a byte before the first start code stays at the head of the VPS part, on a concrete blob |
| H265Extract.CopyParts | android/src/main/kotlin/com/whelksoft/camera_with_rtmp/VideoEncoder.kt:334-342 | the copy loop fills the three arrays so that they concatenate to the input, VPS and SPS having the allocated lengths |
| H265Extract.ExtractVpsSpsPpsFromH265 | android/src/main/kotlin/com/whelksoft/camera_with_rtmp/VideoEncoder.kt:308-347 | scan, allocate (a negative size fails) and copy give exactly the functional extraction |
| Capabilities.ChooseColorDynamically | android/src/main/kotlin/com/whelksoft/camera_with_rtmp/VideoEncoder.kt:175-184 | none exactly when no code is 19 or 21; otherwise the format of the first listed code that is |
| Capabilities.ChooseEncoder | android/src/main/kotlin/com/whelksoft/camera_with_rtmp/VideoEncoder.kt:249-265 | none exactly when no encoder advertises a matching code (only the surface code in surface mode, 19 or 21 otherwise); otherwise the first encoder in list order that does |
| Capabilities.DynamicalChoiceAfterEncoder | android/src/main/kotlin/com/whelksoft/camera_with_rtmp/VideoEncoder.kt:59-70 | outside surface mode, the dynamic colour choice on the chosen encoder always succeeds, with a code that encoder advertises |
| InputFrames.NormalizedOrientation | android/src/main/kotlin/com/whelksoft/camera_with_rtmp/VideoEncoder.kt:376-377 | for an orientation in [0, 360) the result is in [0, 360) and equals orientation plus 180 when flipped, modulo 360; unflipped orientations pass unchanged |
| InputFrames.FirstForwarded | android/src/main/kotlin/com/whelksoft/camera_with_rtmp/VideoEncoder.kt:370-372 | the frame returned is the first one the limiter forwards; all frames taken before it are skipped |
| InputFrames.PlanConversion | android/src/main/kotlin/com/whelksoft/camera_with_rtmp/VideoEncoder.kt:373-388 | software rotation exactly when the encoder does not rotate, and then by the normalised orientation (the orientation plus 180 when flipped, within [0, 360)); the YV12 path exactly for YV12 frames; conversion always, to the constructor's colour format |
| InputFrames.GetInputFrame | android/src/main/kotlin/com/whelksoft/camera_with_rtmp/VideoEncoder.kt:370-391 | no frame exactly when the limiter skips every queued frame; otherwise the queue is skipped frames, the frame returned (which the limiter forwards), and the frames left in order; the returned frame's transform is the rotation and conversion planned for it |
| EncoderSession.NewSession | android/src/main/kotlin/com/whelksoft/camera_with_rtmp/VideoEncoder.kt:31-49 | a new encoder is valid, stopped, with the flag clear and the queue empty |
| EncoderSession.Prepare | android/src/main/kotlin/com/whelksoft/camera_with_rtmp/VideoEncoder.kt:58-110 | succeeds exactly when an encoder is found, created and configured. On success the codec is configured on the first matching encoder, with a descriptor that has width and height swapped, the session's bitrate, frame rate, I-frame interval and rotation, and profile and level only when both are positive. Its colour code is the configured format's code, or in dynamic mode the first YUV420 code the encoder lists. On failure the running flag is unchanged, and the codec is either unchanged or the newly created one; queue, flag and clock origin are unchanged in every case |
| EncoderSession.Start | android/src/main/kotlin/com/whelksoft/camera_with_rtmp/VideoEncoder.kt:112-139 | flag cleared, time origin set and thread marked started in every case, with configuration, codec, queue and bitrate unchanged; running afterwards exactly when it already was or the thread was fresh and the codec configured; a second start raises the thread fault, a fresh start with a null codec raises the null-codec fault, and one with an unconfigured codec the not-configured fault |
| EncoderSession.StopImp | android/src/main/kotlin/com/whelksoft/camera_with_rtmp/VideoEncoder.kt:141-153 | queue emptied and flag cleared, nothing else changed |
| EncoderSession.Stop | android/src/main/kotlin/com/whelksoft/camera_with_rtmp/VideoEncoder.kt:155-167 | always stopped with no codec, and nothing but running, codec, queue and flag changes; queue and flag reset exactly when there was a codec and its stop and release returned |
| EncoderSession.InputYuvData | android/src/main/kotlin/com/whelksoft/camera_with_rtmp/VideoEncoder.kt:221-225 | the frame is appended exactly when running with fewer than 80 queued; otherwise nothing changes; the bound of 80 is kept |
| EncoderSession.SetVideoBitrateOnFly | android/src/main/kotlin/com/whelksoft/camera_with_rtmp/VideoEncoder.kt:187-198 | the bitrate changes exactly while running, nothing else changes |
| EncoderSession.InputAvailable | android/src/main/kotlin/com/whelksoft/camera_with_rtmp/VideoEncoder.kt:370-406 | nothing is submitted exactly when the limiter skips every queued frame, and then the queue is empty; otherwise the queue was skipped frames, the submitted frame and the frames left behind in order, the submitted frame is the first the limiter forwards, it carries the rotation and conversion planned for it, and it is stamped `now - presentTimeUs` |
| EncoderSession.FormatChanged | android/src/main/kotlin/com/whelksoft/camera_with_rtmp/VideoEncoder.kt:227-237 | formatChanged (lines 409-413) reports the format, then for H.264 sends csd-0 and csd-1 and sets the flag; for H.265 calls `onSpsPpsVps` with the SPS, PPS and VPS that the extraction cuts from csd-0 (which concatenate back to csd-0) and sets the flag, or raises with the state unchanged when extraction fails |
| EncoderSession.CheckBuffer | android/src/main/kotlin/com/whelksoft/camera_with_rtmp/VideoEncoder.kt:415-426 | with the corrected split: sends parameter sets exactly when the buffer carries the codec-config flag, the flag is clear and the buffer holds two accepted start codes; they are the SPS and PPS of the corrected split; the flag is set exactly then |
| EncoderSession.OutputAvailable | android/src/main/kotlin/com/whelksoft/camera_with_rtmp/VideoEncoder.kt:434-440 | with the corrected split: the buffer is always delivered last, stamped `now - presentTimeUs`; it is preceded by parameter sets exactly when the buffer carries the codec-config flag, the flag is clear and the buffer holds two accepted start codes; those sets are the corrected SPS and PPS, and the flag is set exactly then |
| EncoderSession.CheckBufferAsWritten | android/src/main/kotlin/com/whelksoft/camera_with_rtmp/VideoEncoder.kt:415-426 | with the fallback as written: an event exactly for a codec-config buffer with the flag clear and two start codes; it is `IndexOutOfBounds` when the SPS copy runs past the end, and then the flag stays clear; otherwise it is the as-written SPS and PPS, and the flag is set |
| EncoderSession.OutputAvailableAsWritten | android/src/main/kotlin/com/whelksoft/camera_with_rtmp/VideoEncoder.kt:434-440 | with checkBuffer as written: when its copy runs past the end the step only raises and nothing is delivered, as the callback at lines 453-460 catches only IllegalStateException; otherwise the buffer is delivered last, stamped `now - presentTimeUs`, preceded exactly when the flag was clear and the as-written decoder succeeds by the as-written SPS and PPS, after which the flag is set |
| EncoderSession.AsWrittenOutputAgreesAtZero | android/src/main/kotlin/com/whelksoft/camera_with_rtmp/VideoEncoder.kt:290-292 | when the configuration buffer begins with a start code, the output step as written equals the one with the corrected split |
| EncoderSession.AsWrittenOutputDropsBuffer | android/src/main/kotlin/com/whelksoft/camera_with_rtmp/VideoEncoder.kt:290-292 | on a configuration buffer with six leading bytes and the flag clear, the output step as written raises and delivers nothing |
| EncoderSession.RunPreservesValid | android/src/main/kotlin/com/whelksoft/camera_with_rtmp/VideoEncoder.kt:40 | any run of operations, with output steps as written or corrected, keeps the queue at 80 frames or fewer, and a running session holds a codec and a started thread |
| EncoderSession.AtMostOnePerGeneration | android/src/main/kotlin/com/whelksoft/camera_with_rtmp/VideoEncoder.kt:417-423 | between starts, stops and format changes the fallback sends parameter sets at most once, and never once the flag is set, with output steps as written or corrected |
| EncoderSession.RestartResendsParameterSets | android/src/main/kotlin/com/whelksoft/camera_with_rtmp/VideoEncoder.kt:113 | with the corrected split: after a start, the next codec-config buffer holding two start codes sends parameter sets again |
| EncoderSession.ResetOutcome | android/src/main/kotlin/com/whelksoft/camera_with_rtmp/VideoEncoder.kt:169-173 | for a session holding a codec, whose stop and release return and whose prepare finds, creates and configures an encoder: reset empties the queue, clears the flag and resets the time origin; it leaves the encoder running exactly when the thread had never been started |
| EncoderSession.OfferedFrameComesOutInOrder | android/src/main/kotlin/com/whelksoft/camera_with_rtmp/VideoEncoder.kt:221-225 | the queue is first in, first out: with no skipping, the input step submits the oldest frame and a frame offered to an empty queue is the next one submitted |
| EncoderSession.OutputTimestamps | android/src/main/kotlin/com/whelksoft/camera_with_rtmp/VideoEncoder.kt:428-432 | with the corrected split, an output step delivers exactly one access unit, stamped with the clock minus the start time |
| EncoderSession.OutputAsWrittenTimestamps | android/src/main/kotlin/com/whelksoft/camera_with_rtmp/VideoEncoder.kt:428-440 | with checkBuffer as written, an output step delivers one access unit stamped with the clock minus the start time, or none when the SPS copy runs past the end |
| EncoderSession.TimestampsNonDecreasing | android/src/main/kotlin/com/whelksoft/camera_with_rtmp/VideoEncoder.kt:430 | without a start, and with a clock that never goes back, delivered timestamps are non-decreasing, with output steps as written or corrected |

## Left out

- `MediaCodec` calls (configure, start, stop, release, setParameters, createInputSurface, buffer access) have no visible semantics. They are replaced by the booleans `created`, `configured` and `backendOk` and by the codec's state (none, created, configured).
- The handler thread's quit and looper, the asynchronous callback object, and the pre-Marshmallow polling loop (`getDataFromEncoder`, `isBufferMode`) are scheduling. The input and output steps are explicit operations instead.
- `Build.VERSION` dispatch and logging are left out: they have no logic of their own.
- `YUVUtil` rotation, colour conversion and `preAllocateBuffers` are library code that is not part of this model. Only the transform requested from them is recorded.
- `FpsLimiter` is not part of this model. Its verdicts are an input sequence, and `setFPS(limitFps)` is not modelled.
- `CodecUtil` encoder enumeration and the `force` policy are not part of this model. The filtered list of encoders is an input.
- `System.nanoTime() / 1000` is the parameter `nowUs`, and the division is not modelled.
- `forceSyncFrame` only talks to `MediaCodec`. `getInputSurface` and `setInputSurface` only touch the surface field, and `setInputSurface` assigns the field to itself.
- The blocking `take()` is not modelled. When the limiter skips every queued frame, the model empties the queue and submits nothing. The code instead blocks until a further frame arrives.
- Kotlin nulls are not modelled: `inputYUVData(null)` makes `offer` throw, and the model's frames are never null.
- Exceptions from buffer access in the input and output steps are not modelled. These are the `ByteBuffer.put` overflow or bounds failures in the input step and the `ByteBuffer.get` underflow in the fallback scan. The callbacks catch only IllegalStateException, so these would escape the step.
- The mutable `type` field is fixed in `Config.mime` for the session.
- The surface of surface mode is not modelled. `configured` false also stands for `createInputSurface` throwing. The code has then already configured the codec and cleared `running`; the model leaves the codec in the created state.
- InputFrames.NormalizedOrientation: does not model 32-bit `Int` wrap-around, because orientations are camera angles far from the `Int` range.
- EncoderSession.InputAvailable: timestamps are unbounded integers, not 64-bit `Long`, because microsecond clock readings stay far from the `Long` range.
- EncoderSession.CheckBuffer: uses the corrected split. As written, a configuration buffer with bytes before its first start code sends an SPS that runs into the PPS, or throws an uncaught `IndexOutOfBoundsException`. `EncoderSession.CheckBufferAsWritten` models that.
- EncoderSession.OutputAvailable: delivers every buffer because it uses the corrected split. As written, an out-of-bounds SPS copy in checkBuffer ends the step before sendBuffer. `EncoderSession.OutputAvailableAsWritten` models that, and `EncoderSession.AsWrittenOutputDropsBuffer` gives an input.
- EncoderSession.OutputTimestamps: states the output step with the corrected split only. With checkBuffer as written, an out-of-bounds SPS copy delivers no access unit, as `EncoderSession.OutputAsWrittenTimestamps` states.
- EncoderSession.RestartResendsParameterSets: holds for the corrected split only. As written, a configuration buffer whose SPS copy overruns throws instead of sending.
- H265Extract.ScanPositions: the zero-run counter is an unbounded integer, not 32-bit `Int`, because a blob of 2^31 zero bytes cannot be an array.

## Findings

| source | as written | input that shows it | evidently intended | confidence | as-written member | corrected member |
|---|---|---|---|---|---|---|
| android/src/main/kotlin/com/whelksoft/camera_with_rtmp/VideoEncoder.kt:291-292 | the SPS array has `ppsIndex` bytes copied from `spsIndex`, which is the SPS only when `spsIndex == 0` | `07 00 00 00 01 09 00 00 00 01 05 05` gives SPS `00 00 00 01 09 00`; six leading bytes before `00 00 00 01 09 00 00 00 01 05` make the copy run past the end and throw | SPS is the `ppsIndex - spsIndex` bytes from `spsIndex` | high; not executed | H264Fallback.DecodeSpsPpsAsWritten (with AsWrittenSpsOverrun, AsWrittenCopyOutOfBounds, AsWrittenDivergesAfterLeadingBytes; in the session EncoderSession.OutputAvailableAsWritten with AsWrittenOutputDropsBuffer) | H264Fallback.DecodeSpsPps (with DecodeSpsPpsPartition and FamilyASplit; used by EncoderSession.CheckBuffer) |

=== FILE: base.dfy ===
/** Shared vocabulary of the encoder model: bytes and optional values. */
module Base {

  /** One byte of a buffer, by its unsigned value. The encoder only ever
      compares bytes against 0 and 1, where signed and unsigned readings agree. */
  newtype byte = b: int | 0 <= b < 256

  /** A Kotlin nullable value: `None` where the code has null. */
  datatype Option<+T> = None | Some(value: T)

  /** The four-byte start code `00 00 00 01` of the Annex B byte stream format
      of ITU-T H.264 and ITU-T H.265. */
  const StartCode: seq<byte> := [0, 0, 0, 1]

  /** The four bytes at `i` are a start code. */
  predicate StartCodeAt(b: seq<byte>, i: int) {
    0 <= i && i + 4 <= |b| && b[i] == 0 && b[i + 1] == 0 && b[i + 2] == 0 && b[i + 3] == 1
  }
}

=== FILE: capabilities.dfy ===
/** Encoder and colour-format selection (VideoEncoder.chooseEncoder and
    VideoEncoder.chooseColorDynamically). An encoder is its name and the list
    of colour-format codes it advertises for the session's MIME type; the list
    of candidates is an input, already filtered by the hardware / software /
    first-compatible policy. */
module Capabilities {
  import opened Base

  /** Colour-format codes of Android's MediaCodecInfo.CodecCapabilities. */
  const ColorFormatYuv420Planar: int := 19
  const ColorFormatYuv420SemiPlanar: int := 21
  const ColorFormatSurface: int := 0x7F00_0789

  /** The colour format the session is constructed with. `Yuv420Dynamical`
      lets the chosen encoder decide between planar and semi-planar 4:2:0;
      `OtherFormat` stands for the remaining variants by their code. */
  datatype ColorFormat =
    | Yuv420Planar
    | Yuv420SemiPlanar
    | Surface
    | Yuv420Dynamical
    | OtherFormat(code: int)

  /** The code written into the format descriptor. The dynamic variant is
      resolved before a descriptor is built and has no code here. */
  function CodeOf(f: ColorFormat): int
    requires !f.Yuv420Dynamical?
  {
    match f
    case Yuv420Planar => ColorFormatYuv420Planar
    case Yuv420SemiPlanar => ColorFormatYuv420SemiPlanar
    case Surface => ColorFormatSurface
    case OtherFormat(c) => c
  }

  datatype EncoderInfo = EncoderInfo(name: string, colorFormats: seq<int>)

  predicate IsYuv420Code(c: int) {
    c == ColorFormatYuv420Planar || c == ColorFormatYuv420SemiPlanar
  }

  /** chooseColorDynamically: the format of the first advertised code that is
      planar or semi-planar 4:2:0, or None when no such code is advertised. */
  function ChooseColorDynamically(colors: seq<int>): (r: Option<ColorFormat>)
    ensures r.None? <==> forall k :: 0 <= k < |colors| ==> !IsYuv420Code(colors[k])
    ensures r.Some? ==> r.value == Yuv420Planar || r.value == Yuv420SemiPlanar
    ensures r.Some? ==>
              exists k :: 0 <= k < |colors| && colors[k] == CodeOf(r.value)
                          && forall j :: 0 <= j < k ==> !IsYuv420Code(colors[j])
  {
    if |colors| == 0 then None
    else if colors[0] == ColorFormatYuv420Planar then
      assert colors[0] == CodeOf(Yuv420Planar);
      Some(Yuv420Planar)
    else if colors[0] == ColorFormatYuv420SemiPlanar then
      assert colors[0] == CodeOf(Yuv420SemiPlanar);
      Some(Yuv420SemiPlanar)
    else
      var r := ChooseColorDynamically(colors[1..]);
      assert r.Some? ==>
               exists k :: 0 <= k < |colors| && colors[k] == CodeOf(r.value)
                           && forall j :: 0 <= j < k ==> !IsYuv420Code(colors[j]) by {
        if r.Some? {
          var k :| 0 <= k < |colors[1..]| && colors[1..][k] == CodeOf(r.value)
                   && forall j :: 0 <= j < k ==> !IsYuv420Code(colors[1..][j]);
          assert colors[k + 1] == CodeOf(r.value);
          assert forall j :: 0 <= j < k + 1 ==> !IsYuv420Code(colors[j]) by {
            forall j | 0 <= j < k + 1
              ensures !IsYuv420Code(colors[j])
            {
              if j > 0 {
                assert colors[j] == colors[1..][j - 1];
              }
            }
          }
        }
      }
      assert r.None? ==> forall k :: 0 <= k < |colors| ==> !IsYuv420Code(colors[k]) by {
        if r.None? {
          forall k | 0 <= k < |colors|
            ensures !IsYuv420Code(colors[k])
          {
            if k > 0 {
              assert colors[k] == colors[1..][k - 1];
            }
          }
        }
      }
      r
  }

  /** A code the session's colour format accepts in chooseEncoder: only the
      surface code in SURFACE mode, either YUV 4:2:0 code otherwise. */
  predicate Matches(format: ColorFormat, c: int) {
    if format.Surface? then c == ColorFormatSurface else IsYuv420Code(c)
  }

  /** The encoder advertises at least one matching code. */
  predicate Advertises(e: EncoderInfo, format: ColorFormat) {
    exists c :: c in e.colorFormats && Matches(format, c)
  }

  /** The matching loop of chooseEncoder: the first encoder, in list order,
      that advertises a matching code, or None. */
  function ChooseEncoder(encoders: seq<EncoderInfo>, format: ColorFormat): (r: Option<EncoderInfo>)
    ensures r.None? <==> forall k :: 0 <= k < |encoders| ==> !Advertises(encoders[k], format)
    ensures r.Some? ==> Advertises(r.value, format)
    ensures r.Some? ==>
              exists k :: 0 <= k < |encoders| && encoders[k] == r.value
                          && forall j :: 0 <= j < k ==> !Advertises(encoders[j], format)
  {
    if |encoders| == 0 then None
    else if Advertises(encoders[0], format) then Some(encoders[0])
    else
      var r := ChooseEncoder(encoders[1..], format);
      assert r.Some? ==>
               exists k :: 0 <= k < |encoders| && encoders[k] == r.value
                           && forall j :: 0 <= j < k ==> !Advertises(encoders[j], format) by {
        if r.Some? {
          var k :| 0 <= k < |encoders[1..]| && encoders[1..][k] == r.value
                   && forall j :: 0 <= j < k ==> !Advertises(encoders[1..][j], format);
          assert encoders[k + 1] == r.value;
          forall j | 0 <= j < k + 1
            ensures !Advertises(encoders[j], format)
          {
            if j > 0 {
              assert encoders[j] == encoders[1..][j - 1];
            }
          }
        }
      }
      assert r.None? ==> forall k :: 0 <= k < |encoders| ==> !Advertises(encoders[k], format) by {
        if r.None? {
          forall k | 0 <= k < |encoders|
            ensures !Advertises(encoders[k], format)
          {
            if k > 0 {
              assert encoders[k] == encoders[1..][k - 1];
            }
          }
        }
      }
      r
  }

  /** With any format other than SURFACE, the encoder chooseEncoder returns
      always lets chooseColorDynamically succeed, and the colour it picks is
      one that encoder advertises: the "dynamical choose failed" branch of
      prepare is unreachable. */
  lemma DynamicalChoiceAfterEncoder(encoders: seq<EncoderInfo>, format: ColorFormat)
    requires !format.Surface?
    requires ChooseEncoder(encoders, format).Some?
    ensures var e := ChooseEncoder(encoders, format).value;
            var c := ChooseColorDynamically(e.colorFormats);
            c.Some? && CodeOf(c.value) in e.colorFormats
  {
    var e := ChooseEncoder(encoders, format).value;
    var x :| x in e.colorFormats && Matches(format, x);
    var k :| 0 <= k < |e.colorFormats| && e.colorFormats[k] == x;
    assert IsYuv420Code(e.colorFormats[k]);
  }
}

=== FILE: h264_fallback.dfy ===
/** The H.264 fallback that recovers SPS and PPS from an output buffer flagged
    as codec configuration, for encoders that never report a format change
    (VideoEncoder.decodeSpsPpsFromBuffer). The buffer is split at the first two
    occurrences of the Annex B start code `00 00 00 01`. */
module H264Fallback {
  import opened Base

  /** A position the scan accepts: a start code that begins strictly below
      `length - 4`. A start code occupying exactly the last four bytes is never
      accepted. */
  predicate Hit(csd: seq<byte>, i: int) {
    i < |csd| - 4 && StartCodeAt(csd, i)
  }

  /** `s` and `p` are the first and the second accepted positions. */
  ghost predicate FirstTwoHits(csd: seq<byte>, s: int, p: int) {
    && 0 <= s < p
    && Hit(csd, s)
    && Hit(csd, p)
    && forall i :: 0 <= i < p && i != s ==> !Hit(csd, i)
  }

  ghost predicate HasTwoHits(csd: seq<byte>) {
    exists i, j :: 0 <= i < j && Hit(csd, i) && Hit(csd, j)
  }

  /** The first accepted position at or after `from`, or -1 when there is none. */
  function FirstHit(csd: seq<byte>, from: nat): (r: int)
    ensures r == -1 || (from <= r && Hit(csd, r))
    ensures forall i :: from <= i && (r == -1 || i < r) ==> !Hit(csd, i)
    decreases |csd| - from
  {
    if from >= |csd| - 4 then -1
    else if Hit(csd, from) then from
    else FirstHit(csd, from + 1)
  }

  /** Outcome of the fallback: fewer than two start codes (the source returns
      null), a copy that runs past the end of the buffer (the source's
      System.arraycopy throws), or the two parameter sets. */
  datatype SpsPpsSplit =
    | TooFewStartCodes
    | CopyOutOfBounds
    | SpsPps(sps: seq<byte>, pps: seq<byte>)

  /** The scanning loop of decodeSpsPpsFromBuffer: it walks `i` while
      `i < length - 4`, records the first match as spsIndex and stops at the
      second, recorded as ppsIndex. */
  method ScanSpsPpsIndices(csd: seq<byte>) returns (spsIndex: int, ppsIndex: int)
    ensures spsIndex == -1 ==> ppsIndex == -1 && forall k :: !Hit(csd, k)
    ensures spsIndex != -1 ==> Hit(csd, spsIndex) && forall k :: 0 <= k < spsIndex ==> !Hit(csd, k)
    ensures ppsIndex != -1 ==> FirstTwoHits(csd, spsIndex, ppsIndex)
    ensures ppsIndex == -1 ==> !HasTwoHits(csd)
  {
    var i := 0;
    spsIndex := -1;
    ppsIndex := -1;
    while i < |csd| - 4
      invariant 0 <= i
      invariant ppsIndex == -1
      invariant spsIndex == -1 ==> forall k :: 0 <= k < i ==> !Hit(csd, k)
      invariant spsIndex != -1 ==> 0 <= spsIndex < i && Hit(csd, spsIndex)
      invariant spsIndex != -1 ==> forall k :: 0 <= k < i && k != spsIndex ==> !Hit(csd, k)
      decreases |csd| - i
    {
      if csd[i] == 0 && csd[i + 1] == 0 && csd[i + 2] == 0 && csd[i + 3] == 1 {
        if spsIndex == -1 {
          spsIndex := i;
        } else {
          ppsIndex := i;
          break;
        }
      }
      i := i + 1;
    }
  }

  /** decodeSpsPpsFromBuffer as written: the SPS copy takes `ppsIndex` bytes
      starting at `spsIndex`, which is the range up to the PPS only when the
      first start code is at offset 0. */
  function DecodeSpsPpsAsWritten(csd: seq<byte>): (r: SpsPpsSplit)
    ensures r.TooFewStartCodes? <==> !HasTwoHits(csd)
    ensures !r.TooFewStartCodes? ==>
              exists s, p :: FirstTwoHits(csd, s, p)
                             && (r.CopyOutOfBounds? <==> s + p > |csd|)
                             && (r.SpsPps? ==> r.sps == csd[s..s + p] && r.pps == csd[p..])
  {
    var s := FirstHit(csd, 0);
    if s == -1 then TooFewStartCodes
    else
      var p := FirstHit(csd, s + 1);
      if p == -1 then TooFewStartCodes
      else
        assert FirstTwoHits(csd, s, p);
        if s + p > |csd| then CopyOutOfBounds
        else SpsPps(csd[s..s + p], csd[p..])
  }

  /** The fallback with the SPS taken as the range from the first start code
      up to the second. It never fails on a buffer holding two start codes. */
  function DecodeSpsPps(csd: seq<byte>): (r: SpsPpsSplit)
    ensures !r.CopyOutOfBounds?
    ensures r.SpsPps? <==> HasTwoHits(csd)
    ensures r.SpsPps? ==>
              exists s, p :: FirstTwoHits(csd, s, p) && r.sps == csd[s..p] && r.pps == csd[p..]
  {
    var s := FirstHit(csd, 0);
    if s == -1 then TooFewStartCodes
    else
      var p := FirstHit(csd, s + 1);
      if p == -1 then TooFewStartCodes
      else
        assert FirstTwoHits(csd, s, p);
        SpsPps(csd[s..p], csd[p..])
  }

  /** Both decoders, once the scan has found its two positions `s` and `p`. */
  lemma DecodeAt(csd: seq<byte>, s: int, p: int)
    requires s == FirstHit(csd, 0) && s != -1
    requires p == FirstHit(csd, s + 1) && p != -1
    ensures DecodeSpsPps(csd) == SpsPps(csd[s..p], csd[p..])
    ensures DecodeSpsPpsAsWritten(csd)
            == if s + p > |csd| then CopyOutOfBounds else SpsPps(csd[s..s + p], csd[p..])
  {
    var r := DecodeSpsPps(csd);
    assert r.SpsPps?;
    assert r.sps == csd[s..p];
    assert r.pps == csd[p..];
    AsWrittenAt(csd, s, p);
  }

  lemma AsWrittenAt(csd: seq<byte>, s: int, p: int)
    requires s == FirstHit(csd, 0) && s != -1
    requires p == FirstHit(csd, s + 1) && p != -1
    ensures DecodeSpsPpsAsWritten(csd)
            == if s + p > |csd| then CopyOutOfBounds else SpsPps(csd[s..s + p], csd[p..])
  {
  }

  /** On a buffer with two accepted positions the scan finds both. */
  lemma ScanFindsTwo(csd: seq<byte>) returns (s: int, p: int)
    requires HasTwoHits(csd)
    ensures s == FirstHit(csd, 0) && s != -1
    ensures p == FirstHit(csd, s + 1) && p != -1
  {
    var i, j :| 0 <= i < j && Hit(csd, i) && Hit(csd, j);
    s := FirstHit(csd, 0);
    assert s != -1 && s <= i;
    p := FirstHit(csd, s + 1);
    assert p != -1 by {
      assert s + 1 <= j;
    }
  }

  /** `sps` and `pps` are the buffer from offset `|csd| - |sps| - |pps|` on,
      each beginning with a start code, the PPS with at least one byte after
      it, and no accepted position lies in the dropped prefix. */
  ghost predicate Partition(csd: seq<byte>, sps: seq<byte>, pps: seq<byte>) {
    && |sps| >= 4 && sps[..4] == StartCode
    && |pps| > 4 && pps[..4] == StartCode
    && |sps| + |pps| <= |csd|
    && csd == csd[..|csd| - |sps| - |pps|] + sps + pps
    && forall i :: 0 <= i < |csd| - |sps| - |pps| ==> !Hit(csd, i)
  }

  /** Both parameter sets begin with a start code, the PPS carries at least one
      byte after it, and the two parts are the buffer from its first start code
      on: only bytes before the first start code are dropped. */
  lemma DecodeSpsPpsPartition(csd: seq<byte>)
    requires HasTwoHits(csd)
    ensures DecodeSpsPps(csd).SpsPps?
    ensures Partition(csd, DecodeSpsPps(csd).sps, DecodeSpsPps(csd).pps)
  {
    var s, p := ScanFindsTwo(csd);
    DecodeAt(csd, s, p);
    SplitShape(csd, s, p);
  }

  /** The partition, for any two ordered accepted positions with no accepted
      position before the first. */
  lemma SplitShape(csd: seq<byte>, s: int, p: int)
    requires 0 <= s < p && Hit(csd, s) && Hit(csd, p)
    requires forall i :: 0 <= i < s ==> !Hit(csd, i)
    ensures Partition(csd, csd[s..p], csd[p..])
  {
    assert csd[s + 3] == 1;
    assert p >= s + 4;
    assert csd[s..p][..4] == csd[s..s + 4];
    assert csd[p..][..4] == csd[p..p + 4];
    assert |csd| - |csd[s..p]| - |csd[p..]| == s;
    assert csd == csd[..s] + csd[s..p] + csd[p..];
  }

  /** With the first start code at offset 0 the as-written copy agrees with the
      corrected split, and SPS followed by PPS is the whole buffer. */
  lemma AsWrittenAgreesAtZero(csd: seq<byte>)
    requires Hit(csd, 0)
    ensures DecodeSpsPpsAsWritten(csd) == DecodeSpsPps(csd)
    ensures DecodeSpsPps(csd).SpsPps? ==>
              DecodeSpsPps(csd).sps + DecodeSpsPps(csd).pps == csd
  {
    var s := FirstHit(csd, 0);
    assert s == 0;
    var p := FirstHit(csd, 1);
    if p != -1 {
      assert csd == csd[0..p] + csd[p..];
    }
  }

  /** When the first start code is not at offset 0 the as-written copy differs
      from the corrected split: either the SPS overruns into the PPS or the
      copy leaves the buffer. */
  lemma AsWrittenDivergesAfterLeadingBytes(csd: seq<byte>)
    requires HasTwoHits(csd)
    requires !Hit(csd, 0)
    ensures DecodeSpsPpsAsWritten(csd) != DecodeSpsPps(csd)
  {
    var s, p := ScanFindsTwo(csd);
    assert s != 0;
    DecodeAt(csd, s, p);
  }

  /** A concrete buffer with one leading byte: the as-written SPS takes the
      first byte of the PPS start code along. */
  lemma AsWrittenSpsOverrun()
    ensures DecodeSpsPpsAsWritten([7, 0, 0, 0, 1, 9, 0, 0, 0, 1, 5, 5])
            == SpsPps([0, 0, 0, 1, 9, 0], [0, 0, 0, 1, 5, 5])
    ensures DecodeSpsPps([7, 0, 0, 0, 1, 9, 0, 0, 0, 1, 5, 5])
            == SpsPps([0, 0, 0, 1, 9], [0, 0, 0, 1, 5, 5])
  {
    var csd: seq<byte> := [7, 0, 0, 0, 1, 9, 0, 0, 0, 1, 5, 5];
    assert !Hit(csd, 0) && Hit(csd, 1);
    assert FirstHit(csd, 0) == 1;
    assert !Hit(csd, 2) && !Hit(csd, 3) && !Hit(csd, 4) && !Hit(csd, 5) && Hit(csd, 6);
    assert FirstHit(csd, 2) == 6;
    assert csd[1..7] == [0, 0, 0, 1, 9, 0];
    assert csd[1..6] == [0, 0, 0, 1, 9];
    assert csd[6..] == [0, 0, 0, 1, 5, 5];
  }

  /** A concrete buffer with six leading bytes: the as-written SPS copy would
      read past the end of the buffer. */
  lemma AsWrittenCopyOutOfBounds()
    ensures DecodeSpsPpsAsWritten([7, 7, 7, 7, 7, 7, 0, 0, 0, 1, 9, 0, 0, 0, 1, 5])
            == CopyOutOfBounds
    ensures DecodeSpsPps([7, 7, 7, 7, 7, 7, 0, 0, 0, 1, 9, 0, 0, 0, 1, 5])
            == SpsPps([0, 0, 0, 1, 9], [0, 0, 0, 1, 5])
  {
    var csd: seq<byte> := [7, 7, 7, 7, 7, 7, 0, 0, 0, 1, 9, 0, 0, 0, 1, 5];
    assert FirstHit(csd, 11) == 11;
    assert FirstHit(csd, 10) == 11;
    assert FirstHit(csd, 9) == 11;
    assert FirstHit(csd, 8) == 11;
    assert FirstHit(csd, 7) == 11;
    assert FirstHit(csd, 6) == 6;
    assert FirstHit(csd, 5) == 6;
    assert FirstHit(csd, 4) == 6;
    assert FirstHit(csd, 3) == 6;
    assert FirstHit(csd, 2) == 6;
    assert FirstHit(csd, 1) == 6;
    assert FirstHit(csd, 0) == 6;
    assert csd[6..11] == [0, 0, 0, 1, 9];
    assert csd[11..] == [0, 0, 0, 1, 5];
  }

  /** Family A: a blob `00 00 00 01 <A> 00 00 00 01 <B>` whose A holds no start
      code (not even one running into the second start code) and whose B is
      non-empty splits into `00 00 00 01 <A>` and `00 00 00 01 <B>`, by both the
      corrected and the as-written decoder. */
  lemma FamilyASplit(a: seq<byte>, b: seq<byte>)
    requires forall j :: 0 <= j < |a| ==> !StartCodeAt(a + StartCode, j)
    requires |b| > 0
    ensures DecodeSpsPps(StartCode + a + StartCode + b) == SpsPps(StartCode + a, StartCode + b)
    ensures DecodeSpsPpsAsWritten(StartCode + a + StartCode + b) == SpsPps(StartCode + a, StartCode + b)
  {
    var x, y := StartCode + a, StartCode + b;
    var csd := StartCode + a + StartCode + b;
    assert csd == x + y;
    var q := |x|;
    assert Hit(csd, 0);
    assert Hit(csd, q) by {
      assert csd[q..q + 4] == StartCode;
    }
    forall i | 0 < i < q
      ensures !Hit(csd, i)
    {
      if i < 4 {
        assert csd[3] == 1;
      } else {
        var j := i - 4;
        var t := a + StartCode;
        assert 0 <= j < |a|;
        assert !StartCodeAt(t, j);
        assert csd[i] == t[j] && csd[i + 1] == t[j + 1];
        assert csd[i + 2] == t[j + 2] && csd[i + 3] == t[j + 3];
      }
    }
    assert FirstHit(csd, 0) == 0;
    assert FirstHit(csd, 1) == q;
    DecodeAt(csd, 0, q);
    assert csd[0..q] == x;
    assert csd[q..] == y;
  }

  /** A start code in the last four bytes is never accepted, so a blob whose
      PPS would be a bare start code yields no parameter sets. */
  lemma TrailingStartCodeIgnored()
    ensures DecodeSpsPps([0, 0, 0, 1, 9, 0, 0, 0, 1]) == TooFewStartCodes
  {
    var csd: seq<byte> := [0, 0, 0, 1, 9, 0, 0, 0, 1];
    assert !Hit(csd, 5);
    assert forall k :: 1 <= k ==> !Hit(csd, k);
  }
}

=== FILE: h265_extract.dfy ===
/** Recovery of VPS, SPS and PPS from the `csd-0` blob of an H.265 encoder
    (VideoEncoder.extractVpsSpsPpsFromH265). A byte equal to 1 completes a start
    code when the run of zero bytes just before it is exactly three long; the
    blob is then cut at the second and at the last start code found. */
module H265Extract {
  import opened Base

  /** The value of the zero-run counter when the scan reaches position `i`:
      the number of consecutive zero bytes just before `i`. */
  function ZeroRun(b: seq<byte>, i: nat): (n: nat)
    requires i <= |b|
    ensures n <= i
  {
    if i == 0 then 0
    else if b[i - 1] == 0 then ZeroRun(b, i - 1) + 1
    else 0
  }

  /** A start code at `p` that is not preceded by a further zero byte. */
  predicate IsolatedStartCodeAt(b: seq<byte>, p: int) {
    StartCodeAt(b, p) && (p == 0 || b[p - 1] != 0)
  }

  /** The matcher of the scan fires at `i` (the counter equals exactly 3 and
      the byte is 1) exactly when an isolated start code begins at `i - 3`:
      `00 00 00 00 01` is not recognised. */
  lemma FiresIffIsolatedStartCode(b: seq<byte>, i: int)
    requires 0 <= i < |b|
    ensures ZeroRun(b, i) == 3 && b[i] == 1 <==> i >= 3 && IsolatedStartCodeAt(b, i - 3)
  {
    if i >= 3 && IsolatedStartCodeAt(b, i - 3) {
      IsolatedStartCodeFires(b, i);
    }
    if ZeroRun(b, i) == 3 {
      ThreeZerosBefore(b, i);
    }
  }

  lemma IsolatedStartCodeFires(b: seq<byte>, i: int)
    requires 3 <= i < |b| && IsolatedStartCodeAt(b, i - 3)
    ensures ZeroRun(b, i) == 3
  {
    assert ZeroRun(b, i - 3) == 0;
    assert ZeroRun(b, i - 2) == 1;
    assert ZeroRun(b, i - 1) == 2;
  }

  lemma ThreeZerosBefore(b: seq<byte>, i: int)
    requires 0 <= i < |b| && ZeroRun(b, i) == 3
    ensures i >= 3 && b[i - 1] == 0 && b[i - 2] == 0 && b[i - 3] == 0
    ensures i == 3 || b[i - 4] != 0
  {
    assert b[i - 1] == 0 && ZeroRun(b, i - 1) == 2;
    assert b[i - 2] == 0 && ZeroRun(b, i - 2) == 1;
    assert b[i - 3] == 0 && ZeroRun(b, i - 3) == 0;
  }

  /** The start-code positions whose completing byte lies below `n`, in the
      order the scan discovers them. */
  function PositionsBelow(b: seq<byte>, n: nat): (ps: seq<int>)
    requires n <= |b|
    ensures forall k :: 0 <= k < |ps| ==> 0 <= ps[k] && ps[k] + 3 < n && IsolatedStartCodeAt(b, ps[k])
  {
    if n == 0 then []
    else
      var prev := PositionsBelow(b, n - 1);
      if n >= 4 && IsolatedStartCodeAt(b, n - 4) then prev + [n - 4] else prev
  }

  /** Every isolated start code is recorded. */
  lemma {:induction false} PositionsComplete(b: seq<byte>, n: nat)
    requires n <= |b|
    ensures forall p :: 0 <= p && p + 3 < n && IsolatedStartCodeAt(b, p) ==> p in PositionsBelow(b, n)
  {
    if n > 0 {
      PositionsComplete(b, n - 1);
    }
  }

  /** Increasing, at least four apart. */
  ghost predicate Spaced(ps: seq<int>) {
    forall k, l :: 0 <= k < l < |ps| ==> ps[k] + 4 <= ps[l]
  }

  /** Recorded positions are increasing, at least four bytes apart: start
      codes never overlap. */
  lemma {:induction false} PositionsSpaced(b: seq<byte>, n: nat)
    requires n <= |b|
    ensures Spaced(PositionsBelow(b, n))
  {
    if n > 0 {
      PositionsSpaced(b, n - 1);
      var prev := PositionsBelow(b, n - 1);
      if n >= 4 && IsolatedStartCodeAt(b, n - 4) {
        forall k | 0 <= k < |prev|
          ensures prev[k] + 4 <= n - 4
        {
          assert prev[k] + 3 < n - 1 && b[prev[k] + 3] == 1;
        }
        var ps := prev + [n - 4];
        assert PositionsBelow(b, n) == ps;
        forall k, l | 0 <= k < l < |ps|
          ensures ps[k] + 4 <= ps[l]
        {
          if l < |prev| {
            assert ps[k] == prev[k] && ps[l] == prev[l];
          }
        }
      } else {
        assert PositionsBelow(b, n) == prev;
      }
    }
  }

  /** All start-code positions of the blob, in discovery order. */
  function Positions(b: seq<byte>): seq<int> {
    PositionsBelow(b, |b|)
  }

  /** The three parameter sets, in the order the blob holds them. */
  datatype ParameterSets3 = ParameterSets3(vps: seq<byte>, sps: seq<byte>, pps: seq<byte>)

  /** extractVpsSpsPpsFromH265: VPS is everything before the second start code
      (from offset 0, not from the first start code), SPS runs up to the last
      start code, PPS is the rest. With fewer than three start codes an
      allocation gets a negative size and the source throws; that is `None`. */
  function ExtractVpsSpsPps(csd: seq<byte>): (r: Option<ParameterSets3>)
    ensures r.None? <==> |Positions(csd)| < 3
    ensures r.Some? ==> r.value.vps + r.value.sps + r.value.pps == csd
    ensures r.Some? ==> |r.value.vps| >= 4 && |r.value.sps| >= 4 && |r.value.pps| >= 4
    ensures r.Some? ==> StartCodeAt(r.value.sps, 0) && StartCodeAt(r.value.pps, 0)
  {
    var ps := Positions(csd);
    if |ps| < 3 then None
    else
      var sps, pps := ps[1], ps[|ps| - 1];
      PositionsSpaced(csd, |csd|);
      assert ps[0] + 4 <= ps[1] && ps[1] + 4 <= ps[|ps| - 1];
      assert ps[0] + 4 <= sps && sps + 4 <= pps && pps + 3 < |csd|;
      assert IsolatedStartCodeAt(csd, sps) && IsolatedStartCodeAt(csd, pps);
      assert csd[sps..pps][..4] == csd[sps..sps + 4];
      assert csd[pps..][..4] == csd[pps..pps + 4];
      assert csd == csd[..sps] + csd[sps..pps] + csd[pps..];
      Some(ParameterSets3(csd[..sps], csd[sps..pps], csd[pps..]))
  }

  /** The three parts are the ranges [0, second), [second, last) and
      [last, size) of the recorded start-code positions. */
  lemma ExtractRanges(csd: seq<byte>)
    requires |Positions(csd)| >= 3
    ensures var ps := Positions(csd);
            var r := ExtractVpsSpsPps(csd).value;
            && r.vps == csd[..ps[1]]
            && r.sps == csd[ps[1]..ps[|ps| - 1]]
            && r.pps == csd[ps[|ps| - 1]..]
            && |r.vps| + |r.sps| + |r.pps| == |csd|
  {
  }

  /** A fourth start code moves the PPS boundary: the earlier ones after the
      second stay inside the SPS part. */
  lemma LaterStartCodesStayInSps(csd: seq<byte>)
    requires |Positions(csd)| >= 4
    ensures var ps := Positions(csd);
            StartCodeAt(ExtractVpsSpsPps(csd).value.sps, ps[2] - ps[1])
  {
    var ps := Positions(csd);
    var r := ExtractVpsSpsPps(csd).value;
    assert IsolatedStartCodeAt(csd, ps[2]);
    var d := ps[2] - ps[1];
    PositionsSpaced(csd, |csd|);
    assert ps[2] + 4 <= ps[|ps| - 1];
    assert r.sps[d] == csd[ps[2]] && r.sps[d + 1] == csd[ps[2] + 1];
    assert r.sps[d + 2] == csd[ps[2] + 2] && r.sps[d + 3] == csd[ps[2] + 3];
  }

  /** The blob of `VpsKeepsLeadingBytes`. */
  const LeadingByteBlob: seq<byte> := [9, 0, 0, 0, 1, 64, 0, 0, 0, 1, 66, 0, 0, 0, 1, 68]

  lemma LeadingByteBlobFirstHalf()
    ensures PositionsBelow(LeadingByteBlob, 9) == [1]
  {
    var csd := LeadingByteBlob;
    assert PositionsBelow(csd, 4) == [];
    assert PositionsBelow(csd, 5) == [1];
    assert PositionsBelow(csd, 6) == [1];
    assert PositionsBelow(csd, 7) == [1];
    assert PositionsBelow(csd, 8) == [1];
  }

  lemma LeadingByteBlobPositions()
    ensures Positions(LeadingByteBlob) == [1, 6, 11]
  {
    var csd := LeadingByteBlob;
    LeadingByteBlobFirstHalf();
    assert PositionsBelow(csd, 10) == [1, 6];
    assert PositionsBelow(csd, 11) == [1, 6];
    assert PositionsBelow(csd, 12) == [1, 6];
    assert PositionsBelow(csd, 13) == [1, 6];
    assert PositionsBelow(csd, 14) == [1, 6];
    assert PositionsBelow(csd, 15) == [1, 6, 11];
  }

  /** A concrete blob with one leading byte: the VPS part starts at offset 0
      and keeps that byte. */
  lemma VpsKeepsLeadingBytes()
    ensures ExtractVpsSpsPps(LeadingByteBlob)
            == Some(ParameterSets3([9, 0, 0, 0, 1, 64], [0, 0, 0, 1, 66], [0, 0, 0, 1, 68]))
  {
    var csd := LeadingByteBlob;
    LeadingByteBlobPositions();
    assert csd[..6] == [9, 0, 0, 0, 1, 64];
    assert csd[6..11] == [0, 0, 0, 1, 66];
    assert csd[11..] == [0, 0, 0, 1, 68];
  }

  /** The three position variables of the scan hold, for the start codes
      `ps` found so far, the first, the second and (from the third on) the
      last one; -1 where there is none yet. */
  predicate Recorded(ps: seq<int>, vps: int, sps: int, pps: int) {
    && vps == (if |ps| > 0 then ps[0] else -1)
    && sps == (if |ps| > 1 then ps[1] else -1)
    && pps == (if |ps| > 2 then ps[|ps| - 1] else -1)
  }

  /** One firing of the matcher: the if/else-if/else chain of the scan keeps
      the positions recorded. */
  lemma RecordStep(ps: seq<int>, p: int, vps: int, sps: int, pps: int)
    requires Recorded(ps, vps, sps, pps)
    requires forall k :: 0 <= k < |ps| ==> 0 <= ps[k]
    requires 0 <= p
    ensures Recorded(ps + [p],
                     if vps == -1 then p else vps,
                     if vps != -1 && sps == -1 then p else sps,
                     if vps != -1 && sps != -1 then p else pps)
  {
    var ps' := ps + [p];
    assert ps'[0] == (if |ps| > 0 then ps[0] else p);
    assert |ps| > 1 ==> ps'[1] == ps[1];
  }

  /** The scanning loop of extractVpsSpsPpsFromH265: the counter tracks the
      zero run, the first firing sets vpsPosition, the second spsPosition and
      every later one overwrites ppsPosition. Unset positions stay -1. */
  method ScanPositions(csd: seq<byte>) returns (vpsPosition: int, spsPosition: int, ppsPosition: int)
    ensures Recorded(Positions(csd), vpsPosition, spsPosition, ppsPosition)
  {
    vpsPosition, spsPosition, ppsPosition := -1, -1, -1;
    var contBufferInitiation := 0;
    for i := 0 to |csd|
      invariant contBufferInitiation == ZeroRun(csd, i)
      invariant Recorded(PositionsBelow(csd, i), vpsPosition, spsPosition, ppsPosition)
    {
      FiresIffIsolatedStartCode(csd, i);
      ghost var ps := PositionsBelow(csd, i);
      if contBufferInitiation == 3 && csd[i] == 1 {
        assert PositionsBelow(csd, i + 1) == ps + [i - 3];
        RecordStep(ps, i - 3, vpsPosition, spsPosition, ppsPosition);
        if vpsPosition == -1 {
          vpsPosition := i - 3;
        } else if spsPosition == -1 {
          spsPosition := i - 3;
        } else {
          ppsPosition := i - 3;
        }
      } else {
        assert PositionsBelow(csd, i + 1) == ps;
      }
      if csd[i] == 0 {
        contBufferInitiation := contBufferInitiation + 1;
      } else {
        contBufferInitiation := 0;
      }
    }
  }

  /** The copy loop of extractVpsSpsPpsFromH265: every byte goes to the
      part its index falls in, VPS below `spsPosition`, SPS below
      `ppsPosition`, PPS after. */
  method CopyParts(csd: seq<byte>, spsPosition: int, ppsPosition: int)
      returns (vps: seq<byte>, sps: seq<byte>, pps: seq<byte>)
    requires 0 <= spsPosition <= ppsPosition <= |csd|
    ensures vps + sps + pps == csd
    ensures |vps| == spsPosition && |sps| == ppsPosition - spsPosition
  {
    var v := new byte[spsPosition];
    var s := new byte[ppsPosition - spsPosition];
    var p := new byte[|csd| - ppsPosition];
    for i := 0 to |csd|
      invariant forall k :: 0 <= k < i && k < spsPosition ==> v[k] == csd[k]
      invariant forall k :: spsPosition <= k < i && k < ppsPosition ==> s[k - spsPosition] == csd[k]
      invariant forall k :: ppsPosition <= k < i ==> p[k - ppsPosition] == csd[k]
    {
      if i < spsPosition {
        v[i] := csd[i];
      } else if i < ppsPosition {
        s[i - spsPosition] := csd[i];
      } else {
        p[i - ppsPosition] := csd[i];
      }
    }
    vps, sps, pps := v[..], s[..], p[..];
    assert vps == csd[..spsPosition];
    assert sps == csd[spsPosition..ppsPosition];
    assert pps == csd[ppsPosition..];
    assert csd == csd[..spsPosition] + csd[spsPosition..ppsPosition] + csd[ppsPosition..];
  }

  /** extractVpsSpsPpsFromH265 as written: scan, allocate the three arrays
      (a negative size throws, modelled as `None`) and copy. */
  method ExtractVpsSpsPpsFromH265(csd: seq<byte>) returns (r: Option<ParameterSets3>)
    ensures r == ExtractVpsSpsPps(csd)
  {
    var vpsPosition, spsPosition, ppsPosition := ScanPositions(csd);
    if spsPosition < 0 || ppsPosition - spsPosition < 0 || |csd| - ppsPosition < 0 {
      return None;
    }
    var vps, sps, pps := CopyParts(csd, spsPosition, ppsPosition);
    assert vps == csd[..spsPosition] && sps == csd[spsPosition..ppsPosition] by {
      assert csd[..spsPosition] == (vps + sps + pps)[..|vps|];
      assert csd[spsPosition..ppsPosition] == (vps + sps + pps)[|vps|..|vps| + |sps|];
    }
    assert pps == csd[ppsPosition..] by {
      assert csd[ppsPosition..] == (vps + sps + pps)[|vps| + |sps|..];
    }
    r := Some(ParameterSets3(vps, sps, pps));
  }
}

=== FILE: input_frames.dfy ===
/** The consumer side of the frame queue (VideoEncoder.getInputFrame): take
    frames until the rate limiter lets one through, then plan its rotation and
    colour conversion. The limiter's verdicts are an input; the pixel work of
    rotation and conversion is not modelled, only which transform is asked for. */
module InputFrames {
  import opened Base
  import Capabilities

  /** Android's ImageFormat.YV12; every other capture format goes through the
      NV21 path. */
  const ImageFormatYv12: int := 0x3231_5659

  /** A captured frame: pixel bytes, capture format, orientation in degrees,
      front-camera flip, and the range of the buffer that is submitted. */
  datatype Frame = Frame(buffer: seq<byte>, format: int, orientation: int, flip: bool,
                         offset: int, size: int)

  datatype Layout = Yv12 | Nv21

  /** What getInputFrame asks of the pixel helpers: the source layout, the
      software rotation in degrees (None when the encoder rotates) and the
      target colour format of the conversion. */
  datatype Conversion = Conversion(source: Layout, rotateBy: Option<int>,
                                   target: Capabilities.ColorFormat)

  /** The orientation passed to the rotation helper: 180 degrees more for a
      flipped frame, brought back by 360 once when the sum reaches 360. */
  function NormalizedOrientation(orientation: int, flip: bool): (r: int)
    ensures 0 <= orientation < 360 ==> 0 <= r < 360
    ensures 0 <= orientation < 360 ==>
              r == (orientation + (if flip then 180 else 0)) % 360
    ensures !flip && orientation < 360 ==> r == orientation
  {
    var o := if flip then orientation + 180 else orientation;
    if o >= 360 then o - 360 else o
  }

  /** The k-th frame taken is discarded by the rate limiter. Verdicts beyond
      the given sequence forward the frame. */
  predicate LimiterSkips(skips: seq<bool>, k: int) {
    0 <= k < |skips| && skips[k]
  }

  /** Index of the frame getInputFrame returns when the queue holds `n`
      frames: the first, from `from` on, the limiter forwards. None when every
      queued frame is skipped, after which take() would block. */
  function FirstForwarded(n: nat, skips: seq<bool>, from: nat): (r: Option<nat>)
    ensures r.Some? ==> from <= r.value < n && !LimiterSkips(skips, r.value)
    ensures forall j :: from <= j < n && (r.None? || j < r.value) ==> LimiterSkips(skips, j)
    decreases n - from
  {
    if from >= n then None
    else if LimiterSkips(skips, from) then FirstForwarded(n, skips, from + 1)
    else Some(from)
  }

  /** The software transform getInputFrame requests for a frame: rotation only
      when the encoder is not asked to rotate (`doRotation` false), by the
      normalised orientation; conversion always, to the session's configured
      colour format. */
  function PlanConversion(f: Frame, doRotation: bool, target: Capabilities.ColorFormat): (c: Conversion)
    ensures c.rotateBy == (if doRotation then None else Some(NormalizedOrientation(f.orientation, f.flip)))
    ensures c.rotateBy.Some? && 0 <= f.orientation < 360 ==> 0 <= c.rotateBy.value < 360
    ensures c.source == Yv12 <==> f.format == ImageFormatYv12
    ensures c.target == target
  {
    var source := if f.format == ImageFormatYv12 then Yv12 else Nv21;
    var rotateBy := if !doRotation then Some(NormalizedOrientation(f.orientation, f.flip)) else None;
    Conversion(source, rotateBy, target)
  }

  /** `queue` is `k` frames the limiter skips, then `frame`, which it
      forwards, then `rest` in order. */
  predicate ForwardsAt(queue: seq<Frame>, skips: seq<bool>, k: int, frame: Frame, rest: seq<Frame>) {
    && 0 <= k < |queue|
    && queue == queue[..k] + [frame] + rest
    && (forall j :: 0 <= j < k ==> LimiterSkips(skips, j))
    && !LimiterSkips(skips, k)
  }

  /** A frame ready for the encoder and the queue left behind. */
  datatype Taken = Taken(frame: Frame, conversion: Conversion, rest: seq<Frame>)

  /** getInputFrame over the queue contents: skipped frames are consumed, the
      first forwarded frame is returned with its transform, and the frames
      after it stay queued in order. */
  function GetInputFrame(queue: seq<Frame>, skips: seq<bool>, doRotation: bool,
                         target: Capabilities.ColorFormat): (r: Option<Taken>)
    ensures r.None? <==> forall j :: 0 <= j < |queue| ==> LimiterSkips(skips, j)
    ensures r.Some? ==>
              && ForwardsAt(queue, skips, |queue| - |r.value.rest| - 1, r.value.frame, r.value.rest)
              && r.value.conversion == PlanConversion(r.value.frame, doRotation, target)
  {
    match FirstForwarded(|queue|, skips, 0)
    case None => None
    case Some(k) =>
      assert queue == queue[..k] + [queue[k]] + queue[k + 1..];
      Some(Taken(queue[k], PlanConversion(queue[k], doRotation, target), queue[k + 1..]))
  }
}

=== FILE: session.dfy ===
/** The encoder session of VideoEncoder as an immutable record with one
    transition function per operation: prepare, start, stop (and stopImp),
    inputYUVData, setVideoBitrateOnFly, formatChanged, and the input and output
    steps the encoder callbacks drive. The effects on the outside world are
    the returned events: calls on the sink, frames submitted to the encoder,
    and exceptions escaping an operation. The clock is a parameter in
    microseconds. */
module EncoderSession {
  import opened Base
  import H264Fallback
  import H265Extract
  import opened Capabilities
  import opened InputFrames

  /** Capacity of the frame queue (an ArrayBlockingQueue of 80 slots). */
  const QueueCapacity: nat := 80

  /** MediaCodec.BUFFER_FLAG_CODEC_CONFIG. */
  const BufferFlagCodecConfig: bv32 := 2

  datatype Mime = H264Mime | H265Mime

  /** The constructor parameters that stay fixed for the session. */
  datatype Config = Config(mime: Mime, width: int, height: int, fps: int, rotation: int,
                           doRotation: bool, iFrameInterval: int, format: ColorFormat,
                           avcProfile: int, avcProfileLevel: int)

  /** The MediaFormat handed to configure. */
  datatype FormatDescriptor = FormatDescriptor(
    mime: Mime, width: int, height: int, colorFormat: int, maxInputSize: int,
    bitrate: int, frameRate: int, iFrameInterval: int, rotation: int,
    profileLevel: Option<(int, int)>)

  /** The `codec` field: null, created but not configured, or configured. */
  datatype Codec =
    | NoCodec
    | Created(name: string)
    | Configured(name: string, descriptor: FormatDescriptor)

  /** The encoder's mutable fields. `threadStarted` records whether the one
      handler thread the encoder owns has been started: it is created with the
      encoder and never replaced. */
  datatype Session = Session(config: Config, codec: Codec, running: bool, spsPpsSet: bool,
                             queue: seq<Frame>, bitrate: int, presentTimeUs: int,
                             threadStarted: bool)

  /** An output format as reported by a format change: its `csd-0` and
      `csd-1` buffers. */
  datatype OutputFormat = OutputFormat(csd0: seq<byte>, csd1: seq<byte>)

  /** Exceptions that escape an operation: a thread started a second time, a
      null codec dereferenced, a codec started without being configured, a
      negative array size in the H.265 extraction, an array copy past the end
      of the buffer in the H.264 fallback as written. */
  datatype Fault = ThreadAlreadyStarted | NullCodec | CodecNotConfigured | NegativeArraySize
                 | IndexOutOfBounds

  datatype Event =
    | VideoFormat(format: OutputFormat)
    | SpsPps(sps: seq<byte>, pps: seq<byte>)
    | SpsPpsVps(sps: seq<byte>, pps: seq<byte>, vps: seq<byte>)
    | VideoData(data: seq<byte>, flags: bv32, presentationTimeUs: int)
    | InputQueued(frame: Frame, conversion: Conversion, presentationTimeUs: int)
    | Raised(fault: Fault)

  predicate IsParameterSets(e: Event) {
    e.SpsPps? || e.SpsPpsVps?
  }

  datatype Step = Step(next: Session, events: seq<Event>)

  /** A freshly constructed session. */
  function NewSession(config: Config, bitrate: int): (s: Session)
    ensures Valid(s) && !s.running && !s.spsPpsSet && s.queue == []
  {
    Session(config, NoCodec, false, false, [], bitrate, 0, false)
  }

  /** The state every reachable session is in: the queue within its
      capacity, and a running session always holds a codec (so the `codec!!`
      of setVideoBitrateOnFly never meets null). */
  ghost predicate Valid(s: Session) {
    && |s.queue| <= QueueCapacity
    && (s.running ==> !s.codec.NoCodec? && s.threadStarted)
  }

  // ---------------------------------------------------------------------------
  // prepare

  datatype Prepared = Prepared(next: Session, ok: bool)

  /** The descriptor prepare builds: height and width swapped, the resolved
      colour code, no input-size limit, and profile and level only when both
      are positive. */
  function Descriptor(cfg: Config, bitrate: int, color: ColorFormat): FormatDescriptor
    requires !color.Yuv420Dynamical?
  {
    FormatDescriptor(cfg.mime, cfg.height, cfg.width, CodeOf(color), 0, bitrate, cfg.fps,
                     cfg.iFrameInterval, cfg.rotation,
                     if cfg.avcProfile > 0 && cfg.avcProfileLevel > 0
                     then Some((cfg.avcProfile, cfg.avcProfileLevel)) else None)
  }

  /** prepare: choose an encoder, create it (`created` false when creation
      throws IOException), resolve the dynamic colour format, configure it
      (`configured` false when configure throws IllegalStateException). The
      codec field is replaced as soon as creation succeeds. */
  function Prepare(s: Session, encoders: seq<EncoderInfo>, created: bool, configured: bool): (r: Prepared)
    ensures r.ok <==> ChooseEncoder(encoders, s.config.format).Some? && created && configured
    ensures r.ok ==> && r.next.codec.Configured?
                     && r.next.codec.name == ChooseEncoder(encoders, s.config.format).value.name
                     && !r.next.running
    ensures r.ok ==> && r.next.codec.descriptor.width == s.config.height
                     && r.next.codec.descriptor.height == s.config.width
                     && r.next.codec.descriptor.bitrate == s.bitrate
    ensures r.ok && s.config.format.Yuv420Dynamical? ==>
              && IsYuv420Code(r.next.codec.descriptor.colorFormat)
              && r.next.codec.descriptor.colorFormat
                 in ChooseEncoder(encoders, s.config.format).value.colorFormats
    ensures r.ok && !s.config.format.Yuv420Dynamical? ==>
              r.next.codec.descriptor == Descriptor(s.config, s.bitrate, s.config.format)
    ensures r.ok && s.config.format.Yuv420Dynamical? ==>
              var c := ChooseColorDynamically(ChooseEncoder(encoders, s.config.format).value.colorFormats);
              c.Some? && r.next.codec.descriptor == Descriptor(s.config, s.bitrate, c.value)
    ensures !r.ok ==> r.next.running == s.running && (r.next.codec.NoCodec? ==> s.codec.NoCodec?)
    ensures !r.ok ==>
              || r.next.codec == s.codec
              || (&& created && ChooseEncoder(encoders, s.config.format).Some?
                  && r.next.codec == Created(ChooseEncoder(encoders, s.config.format).value.name))
    ensures r.next == s.(codec := r.next.codec, running := r.next.running)
  {
    match ChooseEncoder(encoders, s.config.format)
    case None => Prepared(s, false)
    case Some(e) =>
      if !created then Prepared(s, false)
      else
        var s1 := s.(codec := Created(e.name));
        var color := if s.config.format.Yuv420Dynamical?
                     then ChooseColorDynamically(e.colorFormats)
                     else Some(s.config.format);
        assert color.Some? && (s.config.format.Yuv420Dynamical? ==> CodeOf(color.value) in e.colorFormats) by {
          if s.config.format.Yuv420Dynamical? {
            DynamicalChoiceAfterEncoder(encoders, s.config.format);
          }
        }
        match color
        case None => Prepared(s1, false)
        case Some(c) =>
          if !configured then Prepared(s1, false)
          else Prepared(s1.(codec := Configured(e.name, Descriptor(s.config, s.bitrate, c)),
                            running := false), true)
  }

  // ---------------------------------------------------------------------------
  // start, stop

  /** start: clear the parameter-set flag and take the clock as the timestamp
      origin, start the handler thread, then start the codec and mark the
      session running. The thread cannot be started twice, so a second start
      throws right after the first two steps; without a configured codec the
      codec's start throws after the thread has been started. */
  function Start(s: Session, nowUs: int): (r: Step)
    ensures !r.next.spsPpsSet && r.next.presentTimeUs == nowUs && r.next.threadStarted
    ensures r.next.running <==> s.running || (!s.threadStarted && s.codec.Configured?)
    ensures !s.threadStarted && s.codec.Configured? ==> r.events == []
    ensures s.threadStarted ==> r.events == [Raised(ThreadAlreadyStarted)]
    ensures !s.threadStarted && s.codec.NoCodec? ==> r.events == [Raised(NullCodec)]
    ensures !s.threadStarted && s.codec.Created? ==> r.events == [Raised(CodecNotConfigured)]
    ensures r.next == s.(spsPpsSet := false, presentTimeUs := nowUs, threadStarted := true,
                         running := r.next.running)
  {
    var s1 := s.(spsPpsSet := false, presentTimeUs := nowUs);
    if s.threadStarted then Step(s1, [Raised(ThreadAlreadyStarted)])
    else
      var s2 := s1.(threadStarted := true);
      match s.codec
      case NoCodec => Step(s2, [Raised(NullCodec)])
      case Created(_) => Step(s2, [Raised(CodecNotConfigured)])
      case Configured(_, _) => Step(s2.(running := true), [])
  }

  /** stopImp: empty the queue and clear the parameter-set flag. */
  function StopImp(s: Session): (r: Session)
    ensures r.queue == [] && !r.spsPpsSet
    ensures && r.config == s.config && r.codec == s.codec && r.running == s.running
            && r.bitrate == s.bitrate && r.presentTimeUs == s.presentTimeUs
            && r.threadStarted == s.threadStarted
  {
    s.(queue := [], spsPpsSet := false)
  }

  /** stop: mark the session stopped and drop the codec. stopImp runs only
      when the codec's stop and release return normally (`backendOk`); a null
      codec or a throwing backend skips it, leaving queue and flag as they
      were. */
  function Stop(s: Session, backendOk: bool): (r: Session)
    ensures !r.running && r.codec.NoCodec?
    ensures !s.codec.NoCodec? && backendOk ==> r.queue == [] && !r.spsPpsSet
    ensures !(!s.codec.NoCodec? && backendOk) ==> r.queue == s.queue && r.spsPpsSet == s.spsPpsSet
    ensures r == s.(running := false, codec := NoCodec, queue := r.queue, spsPpsSet := r.spsPpsSet)
  {
    var s1 := s.(running := false, codec := NoCodec);
    if !s.codec.NoCodec? && backendOk then StopImp(s1) else s1
  }

  // ---------------------------------------------------------------------------
  // live updates and input

  /** inputYUVData: offer the frame to the queue while running; a full queue
      drops it (offer returns false) and leaves the queue as it was. */
  function InputYuvData(s: Session, f: Frame): (r: Session)
    ensures s.running && |s.queue| < QueueCapacity ==> r.queue == s.queue + [f]
    ensures !s.running || |s.queue| >= QueueCapacity ==> r.queue == s.queue
    ensures |s.queue| <= QueueCapacity ==> |r.queue| <= QueueCapacity
    ensures r == s.(queue := r.queue)
  {
    if s.running && |s.queue| < QueueCapacity then s.(queue := s.queue + [f]) else s
  }

  /** setVideoBitrateOnFly: records the new bitrate only while running; a
      backend refusal is logged and has no effect on the state. */
  function SetVideoBitrateOnFly(s: Session, bitrate: int): (r: Session)
    ensures r.bitrate == (if s.running then bitrate else s.bitrate)
    ensures r == s.(bitrate := r.bitrate)
  {
    if s.running then s.(bitrate := bitrate) else s
  }

  /** An input buffer became available: getInputFrame takes frames until the
      limiter forwards one, which is submitted stamped with `now` minus the
      start time. When the limiter skips every queued frame the consumer would
      block in take(): the queue is empty and nothing is submitted. */
  function InputAvailable(s: Session, skips: seq<bool>, nowUs: int): (r: Step)
    ensures r.next == s.(queue := r.next.queue)
    ensures |r.events| <= 1
    ensures |r.events| == 0 <==> forall j :: 0 <= j < |s.queue| ==> LimiterSkips(skips, j)
    ensures |r.events| == 0 ==> r.next.queue == []
    ensures |r.events| == 1 ==>
              && r.events[0].InputQueued?
              && ForwardsAt(s.queue, skips, |s.queue| - |r.next.queue| - 1, r.events[0].frame, r.next.queue)
              && r.events[0].conversion
                 == PlanConversion(r.events[0].frame, s.config.doRotation, s.config.format)
              && r.events[0].presentationTimeUs == nowUs - s.presentTimeUs
  {
    match GetInputFrame(s.queue, skips, s.config.doRotation, s.config.format)
    case None => Step(s.(queue := []), [])
    case Some(t) =>
      assert ForwardsAt(s.queue, skips, |s.queue| - |t.rest| - 1, t.frame, t.rest);
      Step(s.(queue := t.rest), [InputQueued(t.frame, t.conversion, nowUs - s.presentTimeUs)])
  }

  /** The queue is first in, first out: a frame offered to a running session
      with queued frames `q` comes out, when the limiter forwards everything,
      after exactly the frames of `q`, and is the next one submitted once they
      are gone. */
  lemma {:induction false} OfferedFrameComesOutInOrder(s: Session, f: Frame, nowUs: int)
    requires s.running && |s.queue| < QueueCapacity
    ensures var q := InputAvailable(InputYuvData(s, f), [], nowUs);
            && q.next.queue == (s.queue + [f])[1..]
            && q.events == [InputQueued((s.queue + [f])[0],
                                        PlanConversion((s.queue + [f])[0], s.config.doRotation, s.config.format),
                                        nowUs - s.presentTimeUs)]
    ensures s.queue == [] ==>
              InputAvailable(InputYuvData(s, f), [], nowUs).events[0].frame == f
  {
    var s1 := InputYuvData(s, f);
    assert s1.queue == s.queue + [f];
    assert !LimiterSkips([], 0);
    assert FirstForwarded(|s1.queue|, [], 0) == Some(0);
  }

  // ---------------------------------------------------------------------------
  // output

  /** formatChanged: report the format, send the parameter sets and set the
      flag, whether or not it was set. For H.264 the sets are `csd-0` and
      `csd-1` as they are; for H.265 they are extracted from `csd-0`, and an
      extraction with fewer than three start codes throws before the flag is
      set. */
  function FormatChanged(s: Session, fmt: OutputFormat): (r: Step)
    ensures |r.events| == 2 && r.events[0] == VideoFormat(fmt)
    ensures s.config.mime.H264Mime? ==> r.next.spsPpsSet && r.events[1] == SpsPps(fmt.csd0, fmt.csd1)
    ensures s.config.mime.H265Mime? && |H265Extract.Positions(fmt.csd0)| >= 3 ==>
              && r.next.spsPpsSet
              && var e := H265Extract.ExtractVpsSpsPps(fmt.csd0).value;
              && r.events[1] == SpsPpsVps(e.sps, e.pps, e.vps)
              && e.vps + e.sps + e.pps == fmt.csd0
    ensures s.config.mime.H265Mime? && |H265Extract.Positions(fmt.csd0)| < 3 ==>
              r.next == s && r.events[1] == Raised(NegativeArraySize)
    ensures r.next == s.(spsPpsSet := r.next.spsPpsSet)
  {
    var shown := [VideoFormat(fmt)];
    match s.config.mime
    case H264Mime => Step(s.(spsPpsSet := true), shown + [SpsPps(fmt.csd0, fmt.csd1)])
    case H265Mime =>
      match H265Extract.ExtractVpsSpsPps(fmt.csd0)
      case None => Step(s, shown + [Raised(NegativeArraySize)])
      case Some(p) => Step(s.(spsPpsSet := true), shown + [SpsPpsVps(p.sps, p.pps, p.vps)])
  }

  predicate IsCodecConfig(flags: bv32) {
    flags & BufferFlagCodecConfig != 0
  }

  /** checkBuffer: a buffer flagged as codec configuration, while the flag is
      unset, goes through the H.264 fallback (for either codec); when it
      yields two parameter sets they are sent and the flag is set. */
  function CheckBuffer(s: Session, flags: bv32, data: seq<byte>): (r: Step)
    ensures |r.events| <= 1
    ensures |r.events| == 1 <==> IsCodecConfig(flags) && !s.spsPpsSet && H264Fallback.HasTwoHits(data)
    ensures |r.events| == 1 ==> r.events[0] == SpsPps(H264Fallback.DecodeSpsPps(data).sps,
                                                      H264Fallback.DecodeSpsPps(data).pps)
    ensures r.next.spsPpsSet <==> s.spsPpsSet || |r.events| == 1
    ensures r.next == s.(spsPpsSet := r.next.spsPpsSet)
  {
    if IsCodecConfig(flags) && !s.spsPpsSet then
      match H264Fallback.DecodeSpsPps(data)
      case SpsPps(sps, pps) => Step(s.(spsPpsSet := true), [SpsPps(sps, pps)])
      case _ => Step(s, [])
    else Step(s, [])
  }

  /** An output buffer became available: checkBuffer, then sendBuffer, which
      stamps the buffer with `now` minus the start time and hands it to the
      sink. */
  function OutputAvailable(s: Session, flags: bv32, data: seq<byte>, nowUs: int): (r: Step)
    ensures 1 <= |r.events| <= 2
    ensures r.events[|r.events| - 1] == VideoData(data, flags, nowUs - s.presentTimeUs)
    ensures |r.events| == 2 <==> IsCodecConfig(flags) && !s.spsPpsSet && H264Fallback.HasTwoHits(data)
    ensures |r.events| == 2 ==>
              r.events[0] == SpsPps(H264Fallback.DecodeSpsPps(data).sps, H264Fallback.DecodeSpsPps(data).pps)
    ensures r.next == s.(spsPpsSet := r.next.spsPpsSet)
    ensures r.next.spsPpsSet <==> s.spsPpsSet || |r.events| == 2
  {
    var c := CheckBuffer(s, flags, data);
    Step(c.next, c.events + [VideoData(data, flags, nowUs - s.presentTimeUs)])
  }

  /** checkBuffer with the fallback as written, whose SPS copy takes
      `ppsIndex` bytes from `spsIndex` and can run past the buffer. The
      IndexOutOfBoundsException of that copy is raised, the flag stays unset
      and nothing is sent. */
  function CheckBufferAsWritten(s: Session, flags: bv32, data: seq<byte>): (r: Step)
    ensures |r.events| <= 1
    ensures |r.events| == 1 <==> IsCodecConfig(flags) && !s.spsPpsSet && H264Fallback.HasTwoHits(data)
    ensures |r.events| == 1 ==>
              var d := H264Fallback.DecodeSpsPpsAsWritten(data);
              r.events[0] == (if d.CopyOutOfBounds? then Raised(IndexOutOfBounds) else SpsPps(d.sps, d.pps))
    ensures r.next.spsPpsSet <==> s.spsPpsSet || (|r.events| == 1 && r.events[0].SpsPps?)
    ensures r.next == s.(spsPpsSet := r.next.spsPpsSet)
  {
    if IsCodecConfig(flags) && !s.spsPpsSet then
      match H264Fallback.DecodeSpsPpsAsWritten(data)
      case SpsPps(sps, pps) => Step(s.(spsPpsSet := true), [SpsPps(sps, pps)])
      case CopyOutOfBounds => Step(s, [Raised(IndexOutOfBounds)])
      case TooFewStartCodes => Step(s, [])
    else Step(s, [])
  }

  /** checkBuffer as written meets a configuration buffer while the flag is
      unset and its SPS copy runs past the end. */
  predicate OverrunRaises(s: Session, flags: bv32, data: seq<byte>) {
    IsCodecConfig(flags) && !s.spsPpsSet && H264Fallback.DecodeSpsPpsAsWritten(data).CopyOutOfBounds?
  }

  /** The output step with checkBuffer as written. The output callback only
      catches IllegalStateException, so an out-of-bounds copy in checkBuffer
      ends the step before sendBuffer: the buffer is not delivered. */
  function OutputAvailableAsWritten(s: Session, flags: bv32, data: seq<byte>, nowUs: int): (r: Step)
    ensures OverrunRaises(s, flags, data) ==> r.events == [Raised(IndexOutOfBounds)] && r.next == s
    ensures !OverrunRaises(s, flags, data) ==>
              var d := H264Fallback.DecodeSpsPpsAsWritten(data);
              && 1 <= |r.events| <= 2
              && r.events[|r.events| - 1] == VideoData(data, flags, nowUs - s.presentTimeUs)
              && (|r.events| == 2 <==> IsCodecConfig(flags) && !s.spsPpsSet && d.SpsPps?)
              && (|r.events| == 2 ==> r.events[0] == SpsPps(d.sps, d.pps))
              && (r.next.spsPpsSet <==> s.spsPpsSet || |r.events| == 2)
    ensures r.next == s.(spsPpsSet := r.next.spsPpsSet)
  {
    var c := CheckBufferAsWritten(s, flags, data);
    if |c.events| == 1 && c.events[0].Raised? then c
    else Step(c.next, c.events + [VideoData(data, flags, nowUs - s.presentTimeUs)])
  }

  /** When the configuration buffer begins with a start code, the output step
      as written and the one with the corrected split agree. */
  lemma AsWrittenOutputAgreesAtZero(s: Session, flags: bv32, data: seq<byte>, nowUs: int)
    requires H264Fallback.Hit(data, 0)
    ensures OutputAvailableAsWritten(s, flags, data, nowUs) == OutputAvailable(s, flags, data, nowUs)
  {
    H264Fallback.AsWrittenAgreesAtZero(data);
  }

  /** A configuration buffer with six leading bytes before two start codes. */
  const LeadingBytesConfig: seq<byte> := [7, 7, 7, 7, 7, 7, 0, 0, 0, 1, 9, 0, 0, 0, 1, 5]

  /** That buffer, met while the flag is unset: the output step as written
      raises and delivers nothing. */
  lemma AsWrittenOutputDropsBuffer(s: Session, nowUs: int)
    requires !s.spsPpsSet
    ensures OutputAvailableAsWritten(s, BufferFlagCodecConfig, LeadingBytesConfig, nowUs).events
            == [Raised(IndexOutOfBounds)]
  {
    H264Fallback.AsWrittenCopyOutOfBounds();
    assert H264Fallback.DecodeSpsPpsAsWritten(LeadingBytesConfig).CopyOutOfBounds?;
    assert IsCodecConfig(BufferFlagCodecConfig);
  }

  // ---------------------------------------------------------------------------
  // runs of operations

  datatype Op =
    | PrepareOp(encoders: seq<EncoderInfo>, created: bool, configured: bool)
    | StartOp(nowUs: int)
    | StopOp(backendOk: bool)
    | InputYuvOp(frame: Frame)
    | SetBitrateOp(bitrate: int)
    | FormatChangedOp(format: OutputFormat)
    | OutputOp(flags: bv32, data: seq<byte>, nowUs: int)
    | OutputAsWrittenOp(flags: bv32, data: seq<byte>, nowUs: int)
    | InputOp(skips: seq<bool>, nowUs: int)
  {
    /** The operation reads the clock. */
    predicate Clocked() {
      StartOp? || OutputOp? || OutputAsWrittenOp? || InputOp?
    }

    /** The operation can neither reset nor set the parameter-set flag by
        itself: everything inside one generation except format changes. */
    predicate WithinGeneration() {
      InputYuvOp? || SetBitrateOp? || OutputOp? || OutputAsWrittenOp? || InputOp?
    }
  }

  function Apply(s: Session, op: Op): Step {
    match op
    case PrepareOp(encoders, created, configured) =>
      Step(Prepare(s, encoders, created, configured).next, [])
    case StartOp(nowUs) => Start(s, nowUs)
    case StopOp(backendOk) => Step(Stop(s, backendOk), [])
    case InputYuvOp(f) => Step(InputYuvData(s, f), [])
    case SetBitrateOp(b) => Step(SetVideoBitrateOnFly(s, b), [])
    case FormatChangedOp(fmt) => FormatChanged(s, fmt)
    case OutputOp(flags, data, nowUs) => OutputAvailable(s, flags, data, nowUs)
    case OutputAsWrittenOp(flags, data, nowUs) => OutputAvailableAsWritten(s, flags, data, nowUs)
    case InputOp(skips, nowUs) => InputAvailable(s, skips, nowUs)
  }

  /** Apply the operations in order, collecting their events. */
  function Run(s: Session, ops: seq<Op>): Step
    decreases |ops|
  {
    if |ops| == 0 then Step(s, [])
    else
      var a := Apply(s, ops[0]);
      var b := Run(a.next, ops[1..]);
      Step(b.next, a.events + b.events)
  }

  /** Every operation keeps a session valid. */
  lemma ApplyPreservesValid(s: Session, op: Op)
    requires Valid(s)
    ensures Valid(Apply(s, op).next)
  {
  }

  /** Every run keeps a session valid: whatever the producer offers, the queue
      never holds more than its capacity. */
  lemma {:induction false} RunPreservesValid(s: Session, ops: seq<Op>)
    requires Valid(s)
    ensures Valid(Run(s, ops).next)
    decreases |ops|
  {
    if |ops| > 0 {
      ApplyPreservesValid(s, ops[0]);
      RunPreservesValid(Apply(s, ops[0]).next, ops[1..]);
    }
  }

  // ---------------------------------------------------------------------------
  // parameter sets are sent at most once per generation

  function CountParameterSets(events: seq<Event>): (n: nat)
    ensures n <= |events|
  {
    if |events| == 0 then 0
    else (if IsParameterSets(events[0]) then 1 else 0) + CountParameterSets(events[1..])
  }

  lemma {:induction false} CountParameterSetsAppend(a: seq<Event>, b: seq<Event>)
    ensures CountParameterSets(a + b) == CountParameterSets(a) + CountParameterSets(b)
    decreases |a|
  {
    if |a| == 0 {
      assert a + b == b;
    } else {
      var ab := a + b;
      assert ab[0] == a[0] && ab[1..] == a[1..] + b;
      CountParameterSetsAppend(a[1..], b);
    }
  }

  /** One operation inside a generation sends parameter sets at most once,
      only while the flag is unset, and then sets it. */
  lemma ApplyWithinGeneration(s: Session, op: Op)
    requires op.WithinGeneration()
    ensures var a := Apply(s, op);
            && CountParameterSets(a.events) <= (if s.spsPpsSet then 0 else 1)
            && (s.spsPpsSet ==> a.next.spsPpsSet)
            && (CountParameterSets(a.events) == 1 ==> a.next.spsPpsSet)
  {
    match op
    case OutputOp(flags, data, nowUs) => OutputWithinGeneration(s, flags, data, nowUs);
    case OutputAsWrittenOp(flags, data, nowUs) => OutputAsWrittenWithinGeneration(s, flags, data, nowUs);
    case InputOp(skips, nowUs) => InputWithinGeneration(s, skips, nowUs);
    case InputYuvOp(f) =>
    case SetBitrateOp(b) =>
  }

  lemma OutputWithinGeneration(s: Session, flags: bv32, data: seq<byte>, nowUs: int)
    ensures var a := OutputAvailable(s, flags, data, nowUs);
            && CountParameterSets(a.events) <= (if s.spsPpsSet then 0 else 1)
            && (s.spsPpsSet ==> a.next.spsPpsSet)
            && (CountParameterSets(a.events) == 1 ==> a.next.spsPpsSet)
  {
    var c := CheckBuffer(s, flags, data);
    CountParameterSetsAppend(c.events, [VideoData(data, flags, nowUs - s.presentTimeUs)]);
    assert CountParameterSets([VideoData(data, flags, nowUs - s.presentTimeUs)]) == 0;
  }

  lemma OutputAsWrittenWithinGeneration(s: Session, flags: bv32, data: seq<byte>, nowUs: int)
    ensures var a := OutputAvailableAsWritten(s, flags, data, nowUs);
            && CountParameterSets(a.events) <= (if s.spsPpsSet then 0 else 1)
            && (s.spsPpsSet ==> a.next.spsPpsSet)
            && (CountParameterSets(a.events) == 1 ==> a.next.spsPpsSet)
  {
    var c := CheckBufferAsWritten(s, flags, data);
    if !OverrunRaises(s, flags, data) {
      CountParameterSetsAppend(c.events, [VideoData(data, flags, nowUs - s.presentTimeUs)]);
      assert CountParameterSets([VideoData(data, flags, nowUs - s.presentTimeUs)]) == 0;
    }
  }

  lemma InputWithinGeneration(s: Session, skips: seq<bool>, nowUs: int)
    ensures var a := InputAvailable(s, skips, nowUs);
            && CountParameterSets(a.events) == 0
            && a.next.spsPpsSet == s.spsPpsSet
  {
    var a := InputAvailable(s, skips, nowUs);
    if |a.events| == 1 {
      assert a.events[1..] == [];
    }
  }

  /** Inside one generation (no prepare, start, stop or format change) the
      fallback path sends parameter sets at most once, and not at all once
      they have been sent. */
  lemma {:induction false} AtMostOnePerGeneration(s: Session, ops: seq<Op>)
    requires forall i :: 0 <= i < |ops| ==> ops[i].WithinGeneration()
    ensures CountParameterSets(Run(s, ops).events) <= (if s.spsPpsSet then 0 else 1)
    ensures s.spsPpsSet ==> Run(s, ops).next.spsPpsSet
    ensures CountParameterSets(Run(s, ops).events) == 1 ==> Run(s, ops).next.spsPpsSet
    decreases |ops|
  {
    if |ops| > 0 {
      var a := Apply(s, ops[0]);
      ApplyWithinGeneration(s, ops[0]);
      AtMostOnePerGeneration(a.next, ops[1..]);
      var b := Run(a.next, ops[1..]);
      CountParameterSetsAppend(a.events, b.events);
    }
  }

  /** After start (a new generation) the first configuration buffer that
      holds two start codes sends parameter sets again, whatever the previous
      generation did. */
  lemma RestartResendsParameterSets(s: Session, nowUs: int, flags: bv32, data: seq<byte>, laterUs: int)
    requires IsCodecConfig(flags) && H264Fallback.HasTwoHits(data)
    ensures var o := OutputAvailable(Start(s, nowUs).next, flags, data, laterUs);
            && CountParameterSets(o.events) == 1
            && o.next.spsPpsSet
  {
    var s1 := Start(s, nowUs).next;
    var o := OutputAvailable(s1, flags, data, laterUs);
    assert |o.events| == 2;
    assert o.events[1..][1..] == [];
  }

  /** reset (stop, prepare, start) ends the old generation: with a working
      backend the queue is emptied and the flag cleared, and the start takes
      the new time origin. Since the handler thread is the one started before,
      a reset of an encoder that was ever started throws in start and leaves
      it stopped; only an encoder never started comes back running. */
  lemma ResetOutcome(s: Session, encoders: seq<EncoderInfo>, nowUs: int)
    requires !s.codec.NoCodec?
    requires ChooseEncoder(encoders, s.config.format).Some?
    ensures var s1 := Stop(s, true);
            var s2 := Prepare(s1, encoders, true, true).next;
            var s3 := Start(s2, nowUs);
            && s3.next.queue == []
            && !s3.next.spsPpsSet
            && s3.next.presentTimeUs == nowUs
            && (s3.next.running <==> !s.threadStarted)
            && (s.threadStarted ==> s3.events == [Raised(ThreadAlreadyStarted)])
  {
  }

  // ---------------------------------------------------------------------------
  // timestamps

  /** The timestamp an event hands to the sink, if it is an access unit. */
  function Stamp(e: Event): seq<int> {
    if e.VideoData? then [e.presentationTimeUs] else []
  }

  /** The timestamps of the access units among `events`, in order. */
  function Timestamps(events: seq<Event>): (ts: seq<int>)
    ensures |ts| <= |events|
  {
    if |events| == 0 then [] else Stamp(events[0]) + Timestamps(events[1..])
  }

  lemma {:induction false} TimestampsAppend(a: seq<Event>, b: seq<Event>)
    ensures Timestamps(a + b) == Timestamps(a) + Timestamps(b)
    decreases |a|
  {
    if |a| == 0 {
      assert a + b == b;
    } else {
      var ab := a + b;
      assert ab[0] == a[0] && ab[1..] == a[1..] + b;
      calc {
        Timestamps(ab);
        Stamp(a[0]) + Timestamps(a[1..] + b);
        { TimestampsAppend(a[1..], b); }
        Stamp(a[0]) + (Timestamps(a[1..]) + Timestamps(b));
        (Stamp(a[0]) + Timestamps(a[1..])) + Timestamps(b);
      }
    }
  }

  ghost predicate NonDecreasing(xs: seq<int>) {
    forall i, j :: 0 <= i < j < |xs| ==> xs[i] <= xs[j]
  }

  /** Events that are not access units carry no timestamp. */
  lemma {:induction false} NoAccessUnits(events: seq<Event>)
    requires forall k :: 0 <= k < |events| ==> !events[k].VideoData?
    ensures Timestamps(events) == []
    decreases |events|
  {
    if |events| > 0 {
      var rest := events[1..];
      assert forall k :: 0 <= k < |rest| ==> rest[k] == events[k + 1];
      NoAccessUnits(rest);
    }
  }

  /** An output buffer is delivered once, stamped with the clock reading
      minus the start time; the parameter sets sent before it carry no stamp. */
  lemma OutputTimestamps(s: Session, flags: bv32, data: seq<byte>, nowUs: int)
    ensures Timestamps(OutputAvailable(s, flags, data, nowUs).events) == [nowUs - s.presentTimeUs]
  {
    var c := CheckBuffer(s, flags, data);
    var v := VideoData(data, flags, nowUs - s.presentTimeUs);
    assert OutputAvailable(s, flags, data, nowUs).events == c.events + [v];
    TimestampsAppend(c.events, [v]);
    assert Timestamps([v]) == Stamp(v) + Timestamps([v][1..]);
    NoAccessUnits(c.events);
  }

  /** The output step as written delivers its buffer, stamped like the
      corrected one, unless the SPS copy runs past the end; then it delivers
      nothing. */
  lemma OutputAsWrittenTimestamps(s: Session, flags: bv32, data: seq<byte>, nowUs: int)
    ensures Timestamps(OutputAvailableAsWritten(s, flags, data, nowUs).events)
            == (if OverrunRaises(s, flags, data) then [] else [nowUs - s.presentTimeUs])
  {
    var o := OutputAvailableAsWritten(s, flags, data, nowUs);
    if OverrunRaises(s, flags, data) {
      NoAccessUnits(o.events);
    } else {
      var c := CheckBufferAsWritten(s, flags, data);
      var v := VideoData(data, flags, nowUs - s.presentTimeUs);
      assert o.events == c.events + [v];
      TimestampsAppend(c.events, [v]);
      assert Timestamps([v]) == Stamp(v) + Timestamps([v][1..]);
      NoAccessUnits(c.events);
    }
  }

  /** One operation other than start delivers at most one access unit,
      stamped with the operation's clock reading minus the start time. */
  lemma ApplyTimestamps(s: Session, op: Op)
    requires !op.StartOp?
    ensures Apply(s, op).next.presentTimeUs == s.presentTimeUs
    ensures Timestamps(Apply(s, op).events)
            == (if op.OutputOp? || (op.OutputAsWrittenOp? && !OverrunRaises(s, op.flags, op.data))
                then [op.nowUs - s.presentTimeUs] else [])
  {
    match op
    case OutputOp(flags, data, nowUs) =>
      OutputTimestamps(s, flags, data, nowUs);
    case OutputAsWrittenOp(flags, data, nowUs) =>
      OutputAsWrittenTimestamps(s, flags, data, nowUs);
    case FormatChangedOp(fmt) => FormatChangedTimestamps(s, fmt);
    case InputOp(skips, nowUs) => InputTimestamps(s, skips, nowUs);
    case PrepareOp(_, _, _) =>
    case StopOp(_) =>
    case InputYuvOp(_) =>
    case SetBitrateOp(_) =>
  }

  lemma FormatChangedTimestamps(s: Session, fmt: OutputFormat)
    ensures Timestamps(FormatChanged(s, fmt).events) == []
  {
    NoAccessUnits(FormatChanged(s, fmt).events);
  }

  lemma InputTimestamps(s: Session, skips: seq<bool>, nowUs: int)
    ensures Timestamps(InputAvailable(s, skips, nowUs).events) == []
  {
    NoAccessUnits(InputAvailable(s, skips, nowUs).events);
  }

  /** No operation of `ops` is a start. */
  ghost predicate NoStart(ops: seq<Op>) {
    forall i :: 0 <= i < |ops| ==> !ops[i].StartOp?
  }

  /** Every clock reading of `ops` is at least `lo`. */
  ghost predicate ClockFrom(ops: seq<Op>, lo: int) {
    forall i :: 0 <= i < |ops| && ops[i].Clocked() ==> lo <= ops[i].nowUs
  }

  /** The clock readings of `ops` never go back. */
  ghost predicate ClockSorted(ops: seq<Op>) {
    forall i, j :: 0 <= i < j < |ops| && ops[i].Clocked() && ops[j].Clocked() ==>
      ops[i].nowUs <= ops[j].nowUs
  }

  lemma Tail(ops: seq<Op>, lo: int)
    requires |ops| > 0
    ensures NoStart(ops) ==> NoStart(ops[1..])
    ensures ClockFrom(ops, lo) ==> ClockFrom(ops[1..], lo)
    ensures ClockSorted(ops) ==> ClockSorted(ops[1..])
    ensures ClockSorted(ops) && ops[0].Clocked() ==> ClockFrom(ops[1..], ops[0].nowUs)
  {
    var rest := ops[1..];
    assert forall i :: 0 <= i < |rest| ==> rest[i] == ops[i + 1];
  }

  /** Without a start, every delivered access unit is stamped no earlier than
      the earliest clock reading minus the start time, and the start time
      stays. */
  lemma {:induction false} TimestampsBounded(s: Session, ops: seq<Op>, lo: int)
    requires NoStart(ops) && ClockFrom(ops, lo)
    ensures Run(s, ops).next.presentTimeUs == s.presentTimeUs
    ensures forall k :: 0 <= k < |Timestamps(Run(s, ops).events)| ==>
              lo - s.presentTimeUs <= Timestamps(Run(s, ops).events)[k]
    decreases |ops|
  {
    if |ops| > 0 {
      var a := Apply(s, ops[0]);
      ApplyTimestamps(s, ops[0]);
      Tail(ops, lo);
      TimestampsBounded(a.next, ops[1..], lo);
      var b := Run(a.next, ops[1..]);
      TimestampsAppend(a.events, b.events);
    }
  }

  /** A value no larger than any element, put in front of a non-decreasing
      sequence, keeps it non-decreasing. */
  lemma ConsNonDecreasing(x: int, tb: seq<int>)
    requires NonDecreasing(tb)
    requires forall k :: 0 <= k < |tb| ==> x <= tb[k]
    ensures NonDecreasing([x] + tb)
  {
    var ts := [x] + tb;
    forall i, j | 0 <= i < j < |ts|
      ensures ts[i] <= ts[j]
    {
      assert ts[j] == tb[j - 1];
      if i > 0 {
        assert ts[i] == tb[i - 1];
      }
    }
  }

  /** Within a generation (no start) and with a clock that never goes back,
      the access units reach the sink with non-decreasing timestamps. */
  lemma {:induction false} TimestampsNonDecreasing(s: Session, ops: seq<Op>)
    requires NoStart(ops) && ClockSorted(ops)
    ensures NonDecreasing(Timestamps(Run(s, ops).events))
    decreases |ops|
  {
    if |ops| > 0 {
      var a := Apply(s, ops[0]);
      var rest := ops[1..];
      Tail(ops, 0);
      ApplyTimestamps(s, ops[0]);
      TimestampsNonDecreasing(a.next, rest);
      var b := Run(a.next, rest);
      assert Run(s, ops).events == a.events + b.events;
      TimestampsAppend(a.events, b.events);
      if Timestamps(a.events) != [] {
        TimestampsBounded(a.next, rest, ops[0].nowUs);
        ConsNonDecreasing(ops[0].nowUs - s.presentTimeUs, Timestamps(b.events));
      }
    }
  }
}
